=== FILE: README.md ===
# PyDracula-flet music player: a Dafny model

This project models the engine behind the music player page of
PyDracula-flet. It covers five parts:

- **the library scan.** One playlist per directory that holds `.mp3` files, named after the directory, or `默认歌单` for the music root itself. Each playlist is sorted by lower-cased path. The aggregate list `所有歌曲` holds every song, sorted by lower-cased file name.
- **the navigation state machine.** This is the active playlist, the current index, the shuffle, repeat and single-repeat modes, play and pause, mute, next and previous, picking a song, switching playlists, and what happens when a track completes.
- **per-playlist resume records.** These are kept in the `Music.playlist_states` setting: seeding, saving, restoring and repairing them.
- **the lyrics handling.** `[mm:ss.fff]` lines are parsed, sorted stably by start time and padded with seven blank lines. The model also covers the choice of the highlighted line and the scroll target.
- **the metadata cache.** ID3 tags are read. When the tags are incomplete, or a refresh is forced, the remote search is asked. The chosen result's index is stored in TSRC as `index:songmid`, so that each refresh moves on to the next result.

It also models the settings store `AppConfig`: sections of keys in insertion
order, with `get`, `set`, the section operations, and the attribute access
that searches keys across sections.

Modules, one concept each:

| module | file | what it models |
|---|---|---|
| `Common` | common.dfy | `Option`, `Result` |
| `Text` | text.dfy | the Python string operations the code uses (`lower`, `split`, `rsplit`, `strip`, `isdigit`, `int`, `str`), with ASCII digits and case |
| `Sorting` | sorting.dfy | Python's `sorted(key=...)` as a stable insertion sort over a total preorder |
| `Settings` | settings.dfy | `AppConfig` in app/config/config.py |
| `Library` | library.dfy | `get_all_playlists`, `get_all_songs` |
| `Lyrics` | lyrics.dfy | `parse_lyrics`, lyrics padding, `update_lyrics_display` |
| `Metadata` | metadata.dfy | `format_song_name`, `update_song_metadata`, `read_song_metadata` |
| `Resume` | resume.dfy | `_init_playlist_states`, `_restore_last_playback_state`, `_save_playlist_state` |
| `Player` | player.dfy | the `MusicPlayer` page's state and handlers |

Several things the original reads from its environment are inputs to the
model instead:

- the file system: the `(root, files)` pairs `os.walk` yields, whether a path exists, and the ID3 tag read from a file;
- the network: the search status, the result list, the lyric text, and whether saving the tag succeeds;
- the random draws of `random.randint`;
- the playback position the audio control reports.

The `ft.Audio` control is a log of the commands sent to it. Paths are
normalised strings, so `os.path.abspath` is the identity.

## Model

| member | source | states |
|---|---|---|
| Text.Lower | app/pages/player.py:155 | lower-casing keeps the length and maps every character independently |
| Text.Split | app/utils/__init__.py:31 | `split('\n')` yields at least one part; no part contains the separator; joining the parts with it gives back the text |
| Text.StripStart | app/utils/__init__.py:39 | the leading part that `strip` drops is all whitespace and the rest starts with non-whitespace |
| Text.StripEnd | app/utils/__init__.py:39 | the trailing part that `strip` drops is all whitespace and the rest ends with non-whitespace |
| Text.Strip | app/utils/__init__.py:39 | the stripped text is a slice of the input with only whitespace outside it, and neither starts nor ends with whitespace |
| Text.BeforeLast | app/utils/__init__.py:23 | `rsplit(".", 1)[0]` is a prefix that ends just before the last dot, or the whole name when there is no dot |
| Text.AfterFirst | app/utils/__init__.py:25 | `split(".", 1)` cuts at the first dot: part 0, the dot and part 1 give back the text |
| Text.ParseInt | app/utils/__init__.py:176 | `int()` reads a plain digit string as its value and `-digits` as the negated value, and fails on text that is only whitespace; `Text.ParseIntRoundTrip` gives the round trip |
| Text.NatToString | app/utils/__init__.py:236 | the decimal text of a natural number as an f-string writes it: digits worth n, one digit exactly below 10, and no leading zero above 0 |
| Text.ParseIntRoundTrip | app/utils/__init__.py:176 | `int(str(i)) == i` for every integer, negative ones included |
| Sorting.SortBy | app/pages/player.py:158 | `sorted` returns a permutation of its input |
| Sorting.SortBySorted | app/pages/player.py:158 | under a total preorder key, `sorted` returns an ordered list |
| Sorting.SortByStable | app/pages/player.py:175 | `sorted` is stable: the elements that tie with any given element keep their input order |
| Sorting.SortBySortedInput | app/utils/__init__.py:42 | sorting an already ordered list returns it unchanged |
| Settings.Get | app/config/config.py:81-83 | `get` returns the stored value, or the default when either the section or the key is absent |
| Settings.Set | app/config/config.py:85-89 | `set` makes the entry read back as the value; it appends a missing section at the end and changes no other entry or section order |
| Settings.SetKeepsOtherSections | app/config/config.py:85-89 | `set` leaves every section of another name exactly as it was |
| Settings.AddSection | app/config/config.py:110-114 | `add_section` appends an empty section when it is missing and is a no-op otherwise; all other entries are kept |
| Settings.RemoveSection | app/config/config.py:116-120 | `remove_section` drops exactly that section name (a no-op when it is absent) and keeps every other entry; the remaining section names keep their order |
| Settings.SectionNames | app/config/config.py:122-124 | `config_sections` lists the section names in insertion order |
| Settings.GetAttr | app/config/config.py:92-99 | attribute access succeeds exactly when some section holds the key, and then returns the value from the first such section; otherwise it fails with the `AttributeError` message |
| Settings.SetAttr | app/config/config.py:101-108 | internal attribute names pass through; any other name is first written into section `App`, where it can be read back, and then the assignment raises |
| Settings.Default | app/config/config.py:38-64 | the default document has the sections Theme, Window and App, in that order |
| Settings.DefaultAttributes | app/config/config.py:38-64 | on the default document `mode` and `title` resolve to `dark` and `PyDracula`, and `Music` does not resolve |
| Settings.MusicAttributeNeverAppears | app/config/config.py:92-99 | writing keys other than `Music` into the section `Music` never makes the attribute `Music` resolve |
| Library.Basename | app/pages/player.py:157 | a basename contains no `/` |
| Library.BasenameJoin | app/pages/player.py:158 | the basename of a joined path is the joined file name |
| Library.Mp3Files | app/pages/player.py:155 | the kept files are exactly the names whose lower-cased form ends in `.mp3` |
| Library.JoinAll | app/pages/player.py:158 | each kept name is joined onto its directory, position by position |
| Library.PathOrdersArePreorders | app/pages/player.py:158 | comparing lower-cased paths, and comparing lower-cased basenames, are both total preorders |
| Library.PlaylistFilesSpec | app/pages/player.py:155-158 | a directory's playlist is a permutation of its joined `.mp3` files, sorted by lower-cased path, holding exactly those files |
| Library.Lookup | app/pages/player.py:187 | `playlists.get(name)` finds something exactly when the name is a key |
| Library.Names | app/pages/player.py:96 | the keys of the playlist dictionary, in insertion order |
| Library.IndexOf | app/pages/player.py:112 | `list.index` returns the first position holding the value |
| Library.Songs | app/pages/player.py:110 | the songs of a playlist name: the aggregate list for `所有歌曲`, and otherwise the dictionary entry |
| Library.Put | app/pages/player.py:159 | dictionary assignment: the name maps to the new songs and every other name keeps its value; the key order stays the same, or gains the new name at the end |
| Library.PutDistinct | app/pages/player.py:159 | assignment keeps the dictionary's keys distinct |
| Library.GroupHas | app/pages/player.py:154-159 | the scan yields a playlist of a given name exactly when some walked directory has that name and holds an `.mp3` file |
| Library.GroupStep | app/pages/player.py:154-159 | each walked directory adds its own name, if it holds `.mp3` files, and removes no name |
| Library.GroupLast | app/pages/player.py:154-159 | a playlist holds the files of the last walked directory of that name: later directories with the same basename overwrite earlier ones |
| Library.GroupShape | app/pages/player.py:154-159 | the scanned playlists have distinct names and are all non-empty and path-sorted |
| Library.AnyContributesExists | app/pages/player.py:154-159 | some directory contributes a name exactly when there is an index in the walk at which one does |
| Library.GetAllSongs | app/pages/player.py:166-175 | the aggregate list is a permutation of the songs of all playlists, in lower-cased basename order; `Library.AllSongsSpec` adds stability |
| Library.AllSongsSpec | app/pages/player.py:166-175 | the aggregate list is a permutation of all playlists' songs, sorted by lower-cased basename, with songs of equal basename kept in playlist order |
| Library.AllSongsMembers | app/pages/player.py:166-175 | a song is in the aggregate list exactly when some playlist holds it |
| Library.GetAllPlaylists | app/pages/player.py:146-164 | a missing music directory gives no playlists; otherwise the names are distinct and each playlist is non-empty and sorted by lower-cased path; `Library.GroupHas` and `Library.GroupLast` say which names and songs appear |
| Library.Scan | app/pages/player.py:146-175 | a missing music directory yields nothing; otherwise the playlists are distinct, non-empty and sorted, and the aggregate list is their sorted permutation |
| Library.ExampleSortA | app/pages/player.py:158 | `m/A/2.mp3` and `m/A/1.MP3` are ordered by lower-cased path, which puts `1.MP3` first |
| Library.ExampleNameOrder | app/pages/player.py:175 | the aggregate order compares basenames only, so `m/B/1.mp3` sorts before `m/A/2.mp3` |
| Lyrics.MatchTag | app/utils/__init__.py:36 | a match means the line is `[` digits `:` digits `.` digits `]` followed by the rest |
| Lyrics.MatchTagComplete | app/utils/__init__.py:36 | every line of that shape does match, with exactly those groups |
| Lyrics.ParseLine | app/utils/__init__.py:36-39 | a line yields an entry exactly when it matches; the start is minutes·60000 + seconds·1000 + the fraction's integer value, and the text is stripped |
| Lyrics.ParseLineExample | app/utils/__init__.py:36-39 | `[01:02.5]hello` yields start 62005 and text `hello` (the fraction counts as milliseconds whatever its length) |
| Lyrics.ParseLineRejectsUntagged | app/utils/__init__.py:36 | a line that does not start with `[` is dropped |
| Lyrics.CollectMembers | app/utils/__init__.py:34-40 | the collected entries are exactly the parses of the non-empty matching lines |
| Lyrics.ParseLyrics | app/utils/__init__.py:30-42 | the result is a permutation of the entries parsed from the non-empty tagged lines, in start order; `Lyrics.ParseLyricsSpec` adds stability and membership |
| Lyrics.ParseLyricsSpec | app/utils/__init__.py:30-42 | the parsed lyrics are in start order, stable among equal starts, a permutation of the collected entries, never more than the text's lines, each stripped, and exactly the tagged lines |
| Lyrics.Display | app/pages/player.py:239-249 | the displayed lyrics are never empty: seven blank lines plus the parsed lyrics, or the single "not found" line when there are no lyrics or no metadata |
| Lyrics.Padded | app/pages/player.py:242 | seven `(0, "")` lines, then the lyrics unchanged; order by start is preserved |
| Lyrics.DisplaySpec | app/pages/player.py:239-242 | for non-empty lyrics text the display is seven blank lines followed by the parsed lyrics, and it is in start order |
| Lyrics.LastStartedSpec | app/pages/player.py:267 | the reverse search finds a line that has started, and no later line has started; -1 means that none has |
| Lyrics.ActiveLine | app/pages/player.py:267-270 | the highlighted line is inside a non-empty list, has started when it is not the first, and no later line has started |
| Lyrics.ActiveLineSpec | app/pages/player.py:267-270 | the highlighted line has started and no later one has; when none has started the first line is highlighted |
| Lyrics.ActiveLineMonotone | app/pages/player.py:267-270 | on lines in start order, the highlight never moves backwards as the position advances |
| Lyrics.ScrollTarget | app/pages/player.py:279-280 | scrolling happens exactly from line 7 on, to the key seven lines above |
| Lyrics.ScrollPadded | app/pages/player.py:267-280 | on the padded display, from position 0 the highlight is never above the last padding line; on a lyric, the scroll key is that lyric's index in the unpadded list |
| Metadata.FormatSongName | app/utils/__init__.py:17-28 | the formatted name is no longer than the file name and has no surrounding whitespace |
| Metadata.FormatNumbered | app/utils/__init__.py:23-27 | `<digits>.<title>.<ext>` formats to the stripped title |
| Metadata.FormatUnnumbered | app/utils/__init__.py:23-28 | `<stem>.<ext>`, with no dot in the extension and no number prefix, formats to the stripped stem |
| Metadata.FormatExample | app/utils/__init__.py:17-28 | `04.白鸽乌鸦相爱的戏码.mp3` formats to `白鸽乌鸦相爱的戏码` |
| Metadata.FormatOtherDotted | app/utils/__init__.py:23-28 | `<stem>.<ext>` whose stem does not start with `<digits>.` formats to the whole stem, stripped, dots included |
| Metadata.FormatNoDot | app/utils/__init__.py:23-28 | a file name without a dot is only stripped |
| Metadata.FormatDottedExample | app/utils/__init__.py:23-28 | `Mr. Brightside.mp3` formats to `Mr. Brightside` |
| Metadata.StoredIndex | app/utils/__init__.py:169-180 | with no TSRC frame, or one without `:`, the start index is 0 |
| Metadata.SourceRefRoundTrip | app/utils/__init__.py:169-180 | the `index:songmid` text written to TSRC reads back as that index, plus one on a refresh, whatever the songmid holds |
| Metadata.ResetIndex | app/utils/__init__.py:197-199 | an index at or past the length of the result list is reset to 0, and a smaller one is kept |
| Metadata.PyIndex | app/utils/__init__.py:201 | list indexing succeeds exactly for indices from -len to len-1, and negative indices count from the end |
| Metadata.ChoiceInRange | app/utils/__init__.py:197-201 | a non-negative stored index selects the stored result when it is in range, and the first result otherwise |
| Metadata.RefreshAdvances | app/utils/__init__.py:169-201 | each refresh selects the result after the one last written, wrapping to the first after the last |
| Metadata.CoverOf | app/utils/__init__.py:316-320 | the cover URL is the text of the first COMM frame described `CoverURL`, and empty when there is none |
| Metadata.PutComment | app/utils/__init__.py:239-245 | adding a COMM frame replaces the first frame with the same description and language in place, or is appended when there is none; every frame with another key is kept |
| Metadata.PutLyric | app/utils/__init__.py:248-254 | adding a USLT frame replaces the first frame with the same description and language in place, or is appended when there is none; every frame with another key is kept |
| Metadata.WriteTags | app/utils/__init__.py:224-254 | the written tag holds the result's title, singers and album and `index:songmid` in TSRC; the cover comment and the lyrics frame are added only when non-empty, and otherwise those frames are unchanged; comments and lyrics with other keys and all other frames are kept |
| Metadata.CoverAfterPut | app/utils/__init__.py:239-245 | after the update writes a cover comment, reading the cover returns it |
| Metadata.LyricsAfterPut | app/utils/__init__.py:248-254 | when every USLT frame has the key the update writes, the first USLT frame after the update holds the written lyrics |
| Metadata.StartIndex | app/utils/__init__.py:169-180 | an update starts from the index stored in TSRC, or from 0 when the file has no ID3 header |
| Metadata.UpdateSongMetadata | app/utils/__init__.py:152-275 | a missing file gives None and nothing else; the search is asked, with the song name, exactly when the file exists and its tag is readable; the tag changes only after a search that selected a result with a song id; a returned result holds the fields of the result at the recorded index, and its isrc is the TSRC text just written |
| Metadata.UpdateWritesChosenHit | app/utils/__init__.py:197-263 | when the result at the recorded index has a song id and the save succeeds, the tag is written from that result with `index:songmid` for that index in TSRC, and a result is returned exactly when the entry has a song name |
| Metadata.RefreshMovesToNextHit | app/utils/__init__.py:169-236 | a forced refresh of a file whose TSRC records result `i` selects result `i + 1`, wrapping to the first after the last, and a successful refresh records that new index |
| Metadata.ReadSongMetadata | app/utils/__init__.py:277-296 | a missing file, or an ID3 read error other than a missing header, gives None without touching the tag or the services |
| Metadata.CacheHitIff | app/utils/__init__.py:307-346 | the services are skipped exactly when the file is missing or unreadable, or when there is no refresh and the tag holds all six fields; the tag's fields are then returned as they are; otherwise the search keyword is the formatted file name |
| Metadata.RefreshAlwaysSearches | app/utils/__init__.py:307 | a forced refresh of an existing readable file always asks the services |
| Metadata.UpdateThenReadHits | app/utils/__init__.py:224-336 | a complete result stored by an update is returned by the next read straight from the tag, without asking the services |
| Resume.SeedAll | app/pages/player.py:96-98 | the loop adds a blank record for every name that lacks one and keeps existing records |
| Resume.Seed | app/pages/player.py:91-100 | every playlist and `所有歌曲` gets a record, existing records are untouched, and new ones are blank |
| Resume.SeedIdempotent | app/pages/player.py:91-100 | seeding twice is the same as seeding once |
| Resume.Save | app/pages/player.py:137-138 | saving sets the playlist's record to the song and the position and leaves every other record alone |
| Resume.Restore | app/pages/player.py:102-122 | a saved song still in the list is found again with the records unchanged; a stale one restores index 0 and repairs the record to the first song at position 0; no record, or an empty one, restores 0 |
| Resume.SaveThenRestore | app/pages/player.py:102-138 | a restore after a save finds the saved song |
| Resume.RestoreIdempotent | app/pages/player.py:109-120 | a restore repairs a stale record once: a second restore gives the same index and records |
| Resume.RecordRoundTrip | app/pages/player.py:138 | a record read back from its JSON object is the record |
| Resume.RecordsPersist | app/pages/player.py:137-140 | the records survive `config.set("Music", "playlist_states", ...)` and the read back, whatever else the store holds |
| Player.KnownSongs | app/pages/player.py:166-175 | on a scanned catalog a known playlist is empty exactly when the library is, and all its songs are in the aggregate list |
| Player.CurrentSong | app/pages/player.py:177-200 | with no songs at all the current song is ""; an index inside the active list gives that entry; an index outside it is reset to 0, giving the first song, or "" when the list is empty or unknown |
| Player.CurrentSongValid | app/pages/player.py:177-189 | in a valid state the index is never reset, and the current song is a song of the library |
| Player.TogglePlayPause | app/pages/player.py:305-314 | the playing flag flips, a pause or a play is sent according to the old flag, and nothing else changes |
| Player.ToggleTwice | app/pages/player.py:305-314 | two toggles restore the state, with a pause and a play sent in the order the first state calls for |
| Player.SavePlaylistState | app/pages/player.py:124-144 | the active playlist's record becomes the current song and position, other records are kept, the current song and position are persisted; apart from the index that `get_current_song` may reset, nothing else changes |
| Player.SaveThenRestorePlayer | app/pages/player.py:124-144 | saving stores the current song and position under the active playlist, and restoring that playlist finds the song again |
| Player.SetNewSong | app/pages/player.py:465-488 | the new song plays; the commands sent are pause (if it was playing), the source, play, then the metadata task; the settings after the save are the old ones with the resume record, `current_song_path` and `last_position` written and nothing else (volume, modes, current playlist) changed; the modes and the playlist are unchanged |
| Player.SetNewSongValid | app/pages/player.py:465-488 | loading a song keeps the player invariant, and the song loaded is the active list's entry at the index |
| Player.Step | app/pages/player.py:334-376 | the new index is in the list; shuffle never repeats the current song when the list has more than one, and a one-song list gives 0 |
| Player.StepForward | app/pages/player.py:344 | without shuffle, next moves one place on and wraps from the last song to the first |
| Player.StepBackward | app/pages/player.py:376 | without shuffle, previous moves one place back and wraps from the first song to the last, following Python's `%` |
| Player.StepInverse | app/pages/player.py:344-376 | without shuffle, previous undoes next and next undoes previous |
| Player.NextTimesRun | app/pages/player.py:344 | presses of next before the end of the list move one place each |
| Player.NextTimesCompose | app/pages/player.py:344 | a+b presses of next are a presses followed by b presses |
| Player.NextCycles | app/pages/player.py:344 | n presses of next on an n-song list come back to the start, and every song is reached within n presses |
| Player.Navigate | app/pages/player.py:320-382 | an empty list is left alone; otherwise the song at the new index plays, the playlist is kept, the non-shuffle index is (i±1) mod n, and shuffle picks another song |
| Player.NavigateValid | app/pages/player.py:320-382 | next and previous keep the player invariant, and the song playing is the entry at the new index |
| Player.ShuffleDraw | app/pages/player.py:334-340 | the rejection loop returns the first draw that differs from the current index, and every earlier draw equalled it |
| Player.SelectSong | app/pages/player.py:771-806 | an unknown named playlist changes nothing; otherwise the song plays at the first position of the chosen path, or at the current index when the path is not in the list |
| Player.SelectSongPlays | app/pages/player.py:778-788 | picking a song of the active list makes exactly that song current |
| Player.SelectSongValid | app/pages/player.py:771-788 | picking a song keeps the player invariant |
| Player.ShowPlaylist | app/pages/player.py:490-538 | switching to the same playlist changes nothing; playback, the audio, the modes and mute are never touched; any other target first saves the old playlist's resume record, `current_song_path` and `last_position`, even when it is empty or unknown; an empty target keeps the playlist and the persisted current playlist; otherwise the target becomes current, is persisted, and the index is inside it; no other setting (volume, modes) changes |
| Player.SwitchTo | app/pages/player.py:505-538 | after the save: an empty or unknown target changes nothing; otherwise the target becomes the playlist and the persisted current playlist, the index is inside it, and nothing else changes |
| Player.ShowPlaylistKeepsIndex | app/pages/player.py:516-532 | as written, the switch keeps the index of the new list's entry at the old index, not of the song playing; in a list without repetitions that is the old index itself |
| Player.ShowPlaylistValid | app/pages/player.py:490-538 | switching playlists keeps the player invariant |
| Player.ShowPlaylistIntended | app/pages/player.py:519-529 | the switch that the comments describe: the playing song stays current when the new list holds it |
| Player.ShowPlaylistLosesSong | app/pages/player.py:517-524 | a state where switching to `所有歌曲` changes the current song from `B/c.mp3` to `A/b.mp3` although the new list holds `B/c.mp3`, while the intended switch keeps it |
| Player.OnStateChanged | app/pages/player.py:867-881 | on completion, single-repeat seeks to 0 and plays; otherwise without repeat the next song plays; with repeat nothing happens; other events change nothing |
| Player.CompletionAdvances | app/pages/player.py:878-880 | with no mode on, a completed song is followed by the next song of the list, wrapping around |
| Player.OnStateChangedValid | app/pages/player.py:867-881 | the completion handler keeps the player invariant |
| Player.ToggleShuffle | app/pages/player.py:891-897 | the shuffle mode flips, the setting stores the new value, and nothing else changes |
| Player.ToggleRepeat | app/pages/player.py:899-905 | the repeat mode flips, the setting stores the new value, and nothing else changes |
| Player.ToggleSingleRepeat | app/pages/player.py:883-889 | the single-repeat mode flips, the setting stores the new value, and nothing else changes |
| Player.TogglesKeepInvariants | app/pages/player.py:883-905 | the toggles keep the invariant and keep modes and settings in step; each toggle undoes itself |
| Player.ToggleMute | app/pages/player.py:937-944 | mute flips; the volume sent is 0 when muted and the configured volume otherwise; nothing else changes |
| Player.MuteTwice | app/pages/player.py:937-944 | muting then unmuting restores the flag and sends the configured volume last |
| Player.Init | app/pages/player.py:44-87 | start-up gives a valid, synced, paused, unmuted player; an empty library selects `所有歌曲` and loads nothing; otherwise the configured playlist is used if known (else `所有歌曲`), it is persisted, every playlist has a resume record, and the audio control gets the current song, the configured volume and, when the global `last_position` is positive, a seek to it (whatever song that position was saved for) |
| Player.InitResumes | app/pages/player.py:62-68 | when the record of the configured playlist names one of its songs, start-up keeps that playlist and its record, makes that song current and loads it first |
| Player.InitSeekSources | app/pages/player.py:78-87 | for a record naming one of the playlist's songs, start-up as written seeks to the global `last_position`, the intended start-up to the record's own position |
| Player.InitSeeksForeignPosition | app/pages/player.py:78-87 | playing A/x.mp3 in A to 100 s and switching to B leaves a start-up that loads B/y.mp3 and seeks it to 100 s, where the intended start-up does not seek |
| Player.ForeignSeek | app/pages/player.py:78-87 | whenever the restored record names a song at position 0 and the global `last_position` is positive, start-up as written seeks that song to the global position and the intended start-up does not seek |
| Player.InitIntended | app/pages/player.py:78-87 | the intended start-up: everything as in `Init` except the audio commands; any seek goes to a positive position that the active playlist's record holds for the loaded song, and such a record is always resumed |
| Player.SaveThenInitIntended | app/pages/player.py:124-144 | with the intended start-up, saving at a positive position and restarting loads the same song and seeks to that position |
| Player.Pad2 | app/pages/player.py:849 | `{n:02}` gives the digits of n: exactly two below 100, at least two always, and no leading zero from 10 up, which fixes the text |
| Player.FormatTime | app/pages/player.py:844-849 | the text is the minutes, a colon and two digits of seconds; five characters below 100 minutes, and no leading zero from 10 minutes up, so longer texts start with a non-zero digit; `Player.FormatTimeRoundTrip` reads it back |
| Player.FormatTimeRoundTrip | app/pages/player.py:844-849 | `mm:ss` reads back as the whole seconds, and the seconds field always has two digits |
| Player.SongKey | app/pages/player.py:384-390 | the key is `song_` followed by the relative path, with `/`, `\` and `.` replaced by `_` |
| Player.SongKeyCollision | app/pages/player.py:384-390 | the distinct songs `a.b.mp3` and `a_b.mp3` get the same key |
| Player.SongKeyEscaped | app/pages/player.py:384-390 | the corrected key contains no `/`, `\` or `.` either |
| Player.UnescapeEscape | app/pages/player.py:384-390 | the corrected key's escaping can be undone |
| Player.SongKeyEscapedInjective | app/pages/player.py:384-390 | distinct songs get distinct corrected keys, as the comment in the source promises |

## Left out

- Widgets, page updates, highlighting, the rotating cover, notifications and keyboard shortcuts (`register_shortcuts`, `build_playlist` and the other view builders) are not modelled. Only the state they read and write is.
- The progress bar, `seek`, `set_volume` and `update_progress_ui` work on floating-point positions and volumes. The volume is carried as a `real` and never computed with.
- `switch_playlist` (app/pages/player.py:907-911) is not modelled: nothing in the page calls it. It would set the playlist name from the control without any check, reset the index to 0 and save nothing. `refresh_song_metadata` only starts the metadata task, and is not modelled separately. The detached metadata task is a `FetchMetadata` command in the audio log; its concurrency with later handlers is not modelled.
- `async_update_lyrics_and_cover` is modelled through `Lyrics.Display` and `Metadata.ReadSongMetadata`. Its title, artist, album and cover fallbacks only set widget text.
- `os.walk`, `os.path.exists`, `os.makedirs`, `abspath` and `relpath` are not modelled. The walk and existence are inputs. `join` and `basename` are modelled (`Library.Join`, `Library.Basename`) for POSIX paths only: `/` is the one separator. On Windows `basename` also splits on `\`, which changes the order of `所有歌曲` for names holding it. `SongKey` takes the relative path as given. Paths are normalised strings, so `abspath` comparisons are string comparisons.
- The JSON file, `save_config`, `load_config`, the lock and the singleton are not modelled: every settings operation is its in-memory effect. `config_manager` is not part of this model.
- In the player, `config.Music.<field>` is the typed record `MusicSettings`. `Settings.GetAttr` shows that on a store built by `set` the attribute `Music` does not resolve. The player is modelled on the reading its authors evidently intended, a `Music` section.
- `aiohttp` and `mutagen` are not modelled. Their answers are the `Services` and `TagFile` inputs. `save_lyrics` writes a side file that nothing here reads, so it is not modelled. Frames with empty text lists (an `IndexError` on `.text[0]`) are not modelled.
- The playback position the audio control reports is an input to every handler that saves state. When the control is not attached yet the source uses 0; callers pass 0 for that.
- `hasattr(self, "page")` in `show_playlist` is taken to be true.
- Lower-casing, `isdigit`, `int()` and the regular expression's `\d` are modelled for ASCII only. `int()` is modelled with surrounding whitespace and a sign, but not with `_` separators between digits: a TSRC prefix holding them reads as 0.
- The probes for `USLT::'eng'` and `USLT::'chi'` in `read_song_metadata` can never match, since mutagen keys end in an unquoted language code. The model reads the first USLT frame, which is what the fallback does.
- Player.FormatTimeRoundTrip: covers `format_time` for non-negative milliseconds only. Python's `int(ms / 1000)` truncates toward zero for negative input, and negative positions are not modelled.
- Player.Step: the shuffle draw is a parameter constrained to the list and different from the current index. `Player.ShuffleDraw` models the rejection loop that produces it; a draw sequence that never leaves the current index (a non-terminating loop) is excluded by its precondition.
- Metadata.ReadSongMetadata: its own contract covers only the early exits; the cache decision and the lookup are stated by `Metadata.CacheHitIff` and `Metadata.UpdateThenReadHits`.
- Lyrics.Display: its own contract says only that the list is never empty; the padding and the order are stated by `Lyrics.Padded` and `Lyrics.DisplaySpec`.
- With repeat on and single-repeat off, a completed song neither advances nor replays (`update_play_state` does nothing in that branch). The model keeps this as written.
- The documented behaviour, and the comment at app/pages/player.py:519, say that switching playlists keeps the playing song. The code keeps the new list's entry at the old index instead. The model follows the code (`Player.ShowPlaylist`) and gives the intended switch separately (`Player.ShowPlaylistIntended`).

## Findings

| source | as written | input that shows it | evidently intended | confidence | as-written member | corrected member |
|---|---|---|---|---|---|---|
| app/pages/player.py:517-524 | `current_playlist` is reassigned before `get_current_song()` is called, so the "current song" looked up is the new list's entry at the old index | playlist B = [B/a.mp3, B/c.mp3] with B/c.mp3 (index 1) playing; switching to 所有歌曲 = [B/a.mp3, A/b.mp3, B/c.mp3] makes A/b.mp3 current | keep the song that was playing when the new list holds it | not executed | Player.ShowPlaylistLosesSong | Player.ShowPlaylistIntended |
| app/pages/player.py:78-87 | start-up seeks to the global `last_position`, which the last save wrote for whichever playlist was then active, not to the restored playlist's own record | play A/x.mp3 in A to 100 s, switch to B (whose record names B/y.mp3 at 0), restart: B/y.mp3 is loaded and sought to 100 s | resume the loaded song at the position its own record holds | not executed | Player.InitSeeksForeignPosition | Player.InitIntended |
| app/pages/player.py:384-390 | `/`, `\` and `.` are all replaced by `_`, and `_` itself is kept, so keys are not unique although the comment says they are | `a.b.mp3` and `a_b.mp3` in the same directory both get `song_a_b_mp3` | a key that is unique per relative path | not executed | Player.SongKeyCollision | Player.SongKeyEscapedInjective |

=== FILE: common.dfy ===
/** Failure-carrying wrappers shared by every module of the player model. */
module Common {

  /** A value that may be absent: Python's `None` versus a present value. */
  datatype Option<+T> = None | Some(value: T) {

    /** The wrapped value, or `default` when absent (Python's `x or default` for optional values). */
    function GetOr(default: T): T {
      match this
      case Some(v) => v
      case None => default
    }
  }

  /** The outcome of an operation that may raise: a value, or the message of the exception. */
  datatype Result<+R> = Success(value: R) | Failure(error: string)
}

=== FILE: library.dfy ===
/** The library index of the music player (`get_all_playlists` and
    `get_all_songs` in app/pages/player.py): one playlist per directory that
    holds `.mp3` files, and the aggregate list of every song. The directory
    walk is an input: the `(root, files)` pairs `os.walk` would yield. */
module Library {
  import opened Common
  import opened Text
  import opened Sorting

  /** The playlist name given to the music root itself. */
  const DefaultPlaylist: string := "默认歌单"

  /** The name under which the player shows the aggregate list. */
  const AllSongsName: string := "所有歌曲"

  /** One step of `os.walk`: a directory path and the file names in it. */
  datatype WalkEntry = WalkEntry(dir: string, files: seq<string>)

  datatype Playlist = Playlist(name: string, songs: seq<string>)

  /** The scanned library: the per-directory playlists in the order they were
      first created, and the aggregate list of all songs. */
  datatype Catalog = Catalog(playlists: seq<Playlist>, allSongs: seq<string>)

  // ---------------------------------------------------------------------------
  // Paths

  /** `os.path.join(dir, name)` on POSIX paths. */
  function Join(dir: string, name: string): string {
    if |name| > 0 && name[0] == '/' then name
    else if |dir| == 0 || dir[|dir| - 1] == '/' then dir + name
    else dir + "/" + name
  }

  /** `os.path.basename(path)`: everything after the last `/`. */
  function Basename(path: string): (r: string)
    ensures '/' !in r
  {
    if '/' in path then path[RFind(path, '/') + 1..] else path
  }

  /** A file joined onto a directory keeps its own name as basename. */
  lemma BasenameJoin(dir: string, name: string)
    requires '/' !in name
    ensures Basename(Join(dir, name)) == name
  {
    var p := Join(dir, name);
    var start := |p| - |name|;
    assert p[start..] == name;
    assert forall j :: start <= j < |p| ==> p[j] == name[j - start];
    if |dir| > 0 {
      assert p[start - 1] == '/';
      var k := RFind(p, '/');
      assert k == start - 1;
    }
  }

  // ---------------------------------------------------------------------------
  // One directory

  /** `f.lower().endswith(".mp3")`. */
  predicate IsMp3(name: string) {
    EndsWith(Lower(name), ".mp3")
  }

  /** `[f for f in files if f.lower().endswith(".mp3")]`. */
  function Mp3Files(files: seq<string>): (r: seq<string>)
    ensures |r| <= |files|
    ensures forall f :: f in r <==> f in files && IsMp3(f)
  {
    if |files| == 0 then []
    else (if IsMp3(files[0]) then [files[0]] else []) + Mp3Files(files[1..])
  }

  /** `[os.path.join(dir, f) for f in names]`. */
  function JoinAll(dir: string, names: seq<string>): (r: seq<string>)
    ensures |r| == |names|
    ensures forall i :: 0 <= i < |names| ==> r[i] == Join(dir, names[i])
  {
    seq(|names|, i requires 0 <= i < |names| => Join(dir, names[i]))
  }

  /** Paths compared as `key=lambda f: f.lower()` does. */
  predicate PathLe(a: string, b: string) {
    LexLe(Lower(a), Lower(b))
  }

  /** Paths compared as `key=lambda x: os.path.basename(x).lower()` does. */
  predicate NameLe(a: string, b: string) {
    LexLe(Lower(Basename(a)), Lower(Basename(b)))
  }

  lemma PathOrdersArePreorders()
    ensures TotalPreorder(PathLe)
    ensures TotalPreorder(NameLe)
  {
    forall a, b ensures PathLe(a, b) || PathLe(b, a) {
      LexLeTotal(Lower(a), Lower(b));
    }
    forall a, b, c | PathLe(a, b) && PathLe(b, c) ensures PathLe(a, c) {
      LexLeTransitive(Lower(a), Lower(b), Lower(c));
    }
    forall a, b ensures NameLe(a, b) || NameLe(b, a) {
      LexLeTotal(Lower(Basename(a)), Lower(Basename(b)));
    }
    forall a, b, c | NameLe(a, b) && NameLe(b, c) ensures NameLe(a, c) {
      LexLeTransitive(Lower(Basename(a)), Lower(Basename(b)), Lower(Basename(c)));
    }
  }

  /** The playlist a directory becomes: its basename, or the default name for the root. */
  function PlaylistName(root: string, dir: string): string {
    if dir == root then DefaultPlaylist else Basename(dir)
  }

  /** The sorted paths of a directory's `.mp3` files. */
  function PlaylistFiles(e: WalkEntry): seq<string> {
    SortBy(JoinAll(e.dir, Mp3Files(e.files)), PathLe)
  }

  /** A directory produces a playlist of that name. */
  predicate Contributes(root: string, e: WalkEntry, name: string) {
    |Mp3Files(e.files)| > 0 && PlaylistName(root, e.dir) == name
  }

  /** A directory's playlist: exactly its `.mp3` files joined onto the
      directory, sorted by lower-cased path, and non-empty when any exists. */
  lemma PlaylistFilesSpec(e: WalkEntry)
    ensures multiset(PlaylistFiles(e)) == multiset(JoinAll(e.dir, Mp3Files(e.files)))
    ensures SortedBy(PlaylistFiles(e), PathLe)
    ensures |PlaylistFiles(e)| == |Mp3Files(e.files)|
    ensures forall p :: p in PlaylistFiles(e) <==> exists f :: f in e.files && IsMp3(f) && p == Join(e.dir, f)
  {
    var joined := JoinAll(e.dir, Mp3Files(e.files));
    PathOrdersArePreorders();
    SortBySorted(joined, PathLe);
    forall p ensures p in PlaylistFiles(e) <==> exists f :: f in e.files && IsMp3(f) && p == Join(e.dir, f) {
      assert p in PlaylistFiles(e) <==> p in multiset(joined);
      JoinAllMembers(e.dir, Mp3Files(e.files), p);
    }
  }

  lemma JoinAllMembers(dir: string, names: seq<string>, p: string)
    ensures p in JoinAll(dir, names) <==> exists f :: f in names && p == Join(dir, f)
  {
    var joined := JoinAll(dir, names);
    if p in joined {
      var i :| 0 <= i < |joined| && joined[i] == p;
      assert names[i] in names;
    }
    if exists f :: f in names && p == Join(dir, f) {
      var f :| f in names && p == Join(dir, f);
      var i :| 0 <= i < |names| && names[i] == f;
      assert joined[i] == p;
    }
  }

  // ---------------------------------------------------------------------------
  // The playlist dictionary

  function Names(ps: seq<Playlist>): (r: seq<string>)
    ensures |r| == |ps|
    ensures forall i :: 0 <= i < |ps| ==> r[i] == ps[i].name
  {
    if |ps| == 0 then [] else [ps[0].name] + Names(ps[1..])
  }

  /** `playlists.get(name)`. */
  function Lookup(ps: seq<Playlist>, name: string): (r: Option<seq<string>>)
    ensures r.Some? <==> name in Names(ps)
  {
    if |ps| == 0 then None
    else if ps[0].name == name then Some(ps[0].songs)
    else Lookup(ps[1..], name)
  }

  /** `songs.index(x)`: the first position of `x`. */
  function IndexOf(songs: seq<string>, x: string): (i: nat)
    requires x in songs
    ensures i < |songs| && songs[i] == x
    ensures forall j :: 0 <= j < i ==> songs[j] != x
  {
    if songs[0] == x then 0 else 1 + IndexOf(songs[1..], x)
  }

  /** The songs the player shows under `name`: the aggregate list for
      `所有歌曲` (even if a directory has that name), else the playlist. */
  function Songs(c: Catalog, name: string): (r: Option<seq<string>>)
    ensures name != AllSongsName ==> r == Lookup(c.playlists, name)
    ensures name == AllSongsName ==> r == Some(c.allSongs)
  {
    if name == AllSongsName then Some(c.allSongs) else Lookup(c.playlists, name)
  }

  /** A name found in the dictionary belongs to one of its playlists. */
  lemma {:induction false} LookupMember(ps: seq<Playlist>, name: string)
    requires Lookup(ps, name).Some?
    ensures exists q :: q in ps && q.name == name && q.songs == Lookup(ps, name).value
  {
    if ps[0].name != name {
      LookupMember(ps[1..], name);
      var q :| q in ps[1..] && q.name == name && q.songs == Lookup(ps[1..], name).value;
      assert q in ps;
    }
  }

  predicate DistinctNames(ps: seq<Playlist>) {
    forall i, j :: 0 <= i < j < |ps| ==> ps[i].name != ps[j].name
  }

  /** `playlists[name] = songs`: replaces the entry in place, or appends a new one. */
  function Put(ps: seq<Playlist>, name: string, songs: seq<string>): (r: seq<Playlist>)
    ensures Lookup(r, name) == Some(songs)
    ensures forall n :: n != name ==> Lookup(r, n) == Lookup(ps, n)
    ensures name in Names(ps) ==> Names(r) == Names(ps)
    ensures name !in Names(ps) ==> Names(r) == Names(ps) + [name]
  {
    if |ps| == 0 then [Playlist(name, songs)]
    else
      assert ps == [ps[0]] + ps[1..];
      if ps[0].name == name then
        PutHead(ps[0], ps[1..], name, songs);
        [Playlist(name, songs)] + ps[1..]
      else
        var rest := Put(ps[1..], name, songs);
        PutBehind(ps[0], ps[1..], rest, name, songs);
        [ps[0]] + rest
  }

  /** The replaced entry is the first one. */
  lemma PutHead(p: Playlist, tail: seq<Playlist>, name: string, songs: seq<string>)
    requires p.name == name
    ensures var r, ps := [Playlist(name, songs)] + tail, [p] + tail;
      && Lookup(r, name) == Some(songs)
      && (forall n :: n != name ==> Lookup(r, n) == Lookup(ps, n))
      && Names(r) == Names(ps)
  {
    LookupCons(Playlist(name, songs), tail);
    LookupCons(p, tail);
    NamesCons(Playlist(name, songs), tail);
    NamesCons(p, tail);
  }

  /** The entry is put into the tail behind a first entry of another name. */
  lemma PutBehind(p: Playlist, tail: seq<Playlist>, rest: seq<Playlist>, name: string, songs: seq<string>)
    requires p.name != name
    requires Lookup(rest, name) == Some(songs)
    requires forall n :: n != name ==> Lookup(rest, n) == Lookup(tail, n)
    requires name in Names(tail) ==> Names(rest) == Names(tail)
    requires name !in Names(tail) ==> Names(rest) == Names(tail) + [name]
    ensures var r, ps := [p] + rest, [p] + tail;
      && Lookup(r, name) == Some(songs)
      && (forall n :: n != name ==> Lookup(r, n) == Lookup(ps, n))
      && (name in Names(ps) ==> Names(r) == Names(ps))
      && (name !in Names(ps) ==> Names(r) == Names(ps) + [name])
  {
    PutBehindLookup(p, tail, rest, name, songs);
    PutBehindNames(p, tail, rest, name);
  }

  lemma PutBehindLookup(p: Playlist, tail: seq<Playlist>, rest: seq<Playlist>, name: string, songs: seq<string>)
    requires p.name != name
    requires Lookup(rest, name) == Some(songs)
    requires forall n :: n != name ==> Lookup(rest, n) == Lookup(tail, n)
    ensures Lookup([p] + rest, name) == Some(songs)
    ensures forall n :: n != name ==> Lookup([p] + rest, n) == Lookup([p] + tail, n)
  {
    LookupCons(p, rest);
    LookupCons(p, tail);
  }

  lemma PutBehindNames(p: Playlist, tail: seq<Playlist>, rest: seq<Playlist>, name: string)
    requires p.name != name
    requires name in Names(tail) ==> Names(rest) == Names(tail)
    requires name !in Names(tail) ==> Names(rest) == Names(tail) + [name]
    ensures name in Names([p] + tail) ==> Names([p] + rest) == Names([p] + tail)
    ensures name !in Names([p] + tail) ==> Names([p] + rest) == Names([p] + tail) + [name]
  {
    NamesCons(p, rest);
    NamesCons(p, tail);
    ConsNames(p.name, Names(tail), Names(rest), name);
  }

  lemma ConsNames(h: string, a: seq<string>, b: seq<string>, name: string)
    requires h != name
    requires name in a ==> b == a
    requires name !in a ==> b == a + [name]
    ensures name in [h] + a ==> [h] + b == [h] + a
    ensures name !in [h] + a ==> [h] + b == [h] + a + [name]
  {
    if name !in a {
      assert [h] + (a + [name]) == [h] + a + [name];
    }
  }

  /** Names and lookups of a playlist dictionary with one entry in front. */
  lemma NamesCons(p: Playlist, ps: seq<Playlist>)
    ensures Names([p] + ps) == [p.name] + Names(ps)
  {
    assert ([p] + ps)[1..] == ps;
  }

  lemma LookupCons(p: Playlist, ps: seq<Playlist>)
    ensures forall n :: Lookup([p] + ps, n) == if p.name == n then Some(p.songs) else Lookup(ps, n)
  {
    assert ([p] + ps)[1..] == ps;
  }

  lemma {:induction false} PutDistinct(ps: seq<Playlist>, name: string, songs: seq<string>)
    requires DistinctNames(ps)
    ensures DistinctNames(Put(ps, name, songs))
  {
    var r := Put(ps, name, songs);
    forall i, j | 0 <= i < j < |r| ensures r[i].name != r[j].name {
      var n := Names(r);
      if name in Names(ps) {
        assert n == Names(ps);
        assert ps[i].name == n[i] && ps[j].name == n[j];
      } else {
        assert n == Names(ps) + [name];
        if j < |ps| {
          assert ps[i].name == n[i] && ps[j].name == n[j];
        } else {
          assert n[i] == ps[i].name && ps[i].name in Names(ps);
        }
      }
    }
  }

  /** The loop of `get_all_playlists` over the walk. */
  function Group(root: string, walk: seq<WalkEntry>): seq<Playlist> {
    if |walk| == 0 then []
    else
      var e := walk[|walk| - 1];
      var ps := Group(root, walk[..|walk| - 1]);
      if |Mp3Files(e.files)| > 0 then Put(ps, PlaylistName(root, e.dir), PlaylistFiles(e)) else ps
  }

  /** `get_all_playlists`: nothing when the music directory does not exist. */
  function GetAllPlaylists(root: string, rootExists: bool, walk: seq<WalkEntry>): (r: seq<Playlist>)
    ensures !rootExists ==> r == []
    ensures DistinctNames(r)
    ensures forall p :: p in r ==> |p.songs| > 0 && SortedBy(p.songs, PathLe)
  {
    if rootExists then
      GroupShape(root, walk);
      Group(root, walk)
    else []
  }

  /** The playlist dictionary holds a name exactly when some directory contributes it. */
  lemma {:induction false} GroupHas(root: string, walk: seq<WalkEntry>, name: string)
    ensures Lookup(Group(root, walk), name).Some? <==>
      exists i :: 0 <= i < |walk| && Contributes(root, walk[i], name)
  {
    GroupHasRec(root, walk, name);
    AnyContributesExists(root, walk, name);
  }

  /** Some directory of the walk contributes `name`, searched from the end. */
  predicate AnyContributes(root: string, walk: seq<WalkEntry>, name: string) {
    |walk| > 0 && (Contributes(root, walk[|walk| - 1], name) || AnyContributes(root, walk[..|walk| - 1], name))
  }

  lemma {:induction false} GroupHasRec(root: string, walk: seq<WalkEntry>, name: string)
    ensures Lookup(Group(root, walk), name).Some? <==> AnyContributes(root, walk, name)
  {
    if |walk| > 0 {
      GroupHasRec(root, walk[..|walk| - 1], name);
      GroupStep(root, walk, name);
    }
  }

  lemma {:induction false} AnyContributesExists(root: string, walk: seq<WalkEntry>, name: string)
    ensures AnyContributes(root, walk, name) <==> exists i :: 0 <= i < |walk| && Contributes(root, walk[i], name)
  {
    if |walk| > 0 {
      var init, last := walk[..|walk| - 1], |walk| - 1;
      AnyContributesExists(root, init, name);
      assert forall i :: 0 <= i < |init| ==> init[i] == walk[i];
      if Contributes(root, walk[last], name) {
        assert AnyContributes(root, walk, name);
      } else if AnyContributes(root, init, name) {
        var i :| 0 <= i < |init| && Contributes(root, init[i], name);
        assert Contributes(root, walk[i], name);
      } else {
        assert !AnyContributes(root, walk, name);
        forall i | 0 <= i < |walk| ensures !Contributes(root, walk[i], name) {
          if i < last {
            assert walk[i] == init[i];
          }
        }
      }
    }
  }

  /** One more directory adds its own name to the dictionary and removes none. */
  lemma GroupStep(root: string, walk: seq<WalkEntry>, name: string)
    requires |walk| > 0
    ensures Lookup(Group(root, walk), name).Some? <==>
      Lookup(Group(root, walk[..|walk| - 1]), name).Some? || Contributes(root, walk[|walk| - 1], name)
  {
  }

  /** ... and then it holds the files of the LAST such directory: a later
      directory with the same basename overwrites an earlier one. */
  lemma {:induction false} GroupLast(root: string, walk: seq<WalkEntry>, name: string, i: nat)
    requires i < |walk| && Contributes(root, walk[i], name)
    requires forall j :: i < j < |walk| ==> !Contributes(root, walk[j], name)
    ensures Lookup(Group(root, walk), name) == Some(PlaylistFiles(walk[i]))
  {
    if i < |walk| - 1 {
      var init := walk[..|walk| - 1];
      assert init[i] == walk[i];
      GroupLast(root, init, name, i);
    }
  }

  /** Every playlist has distinct name, at least one song, and its songs in
      lower-cased path order. */
  lemma {:induction false} GroupShape(root: string, walk: seq<WalkEntry>)
    ensures DistinctNames(Group(root, walk))
    ensures forall p :: p in Group(root, walk) ==> |p.songs| > 0 && SortedBy(p.songs, PathLe)
  {
    if |walk| > 0 {
      var init := walk[..|walk| - 1];
      var e := walk[|walk| - 1];
      GroupShape(root, init);
      var ps := Group(root, init);
      if |Mp3Files(e.files)| > 0 {
        PlaylistFilesSpec(e);
        var r := Put(ps, PlaylistName(root, e.dir), PlaylistFiles(e));
        PutDistinct(ps, PlaylistName(root, e.dir), PlaylistFiles(e));
        forall p | p in r ensures |p.songs| > 0 && SortedBy(p.songs, PathLe) {
          var k :| 0 <= k < |r| && r[k] == p;
          PutMember(ps, PlaylistName(root, e.dir), PlaylistFiles(e), k);
        }
      }
    }
  }

  lemma {:induction false} PutMember(ps: seq<Playlist>, name: string, songs: seq<string>, k: nat)
    requires k < |Put(ps, name, songs)|
    ensures var p := Put(ps, name, songs)[k]; p == Playlist(name, songs) || p in ps
  {
    if |ps| > 0 && ps[0].name != name && k > 0 {
      PutMember(ps[1..], name, songs, k - 1);
    }
  }

  // ---------------------------------------------------------------------------
  // The aggregate list

  /** `all_songs.extend(playlist)` for each playlist, in dictionary order. */
  function Concat(ps: seq<Playlist>): seq<string> {
    if |ps| == 0 then [] else ps[0].songs + Concat(ps[1..])
  }

  /** `get_all_songs`: every playlist's songs, sorted by lower-cased basename. */
  function GetAllSongs(ps: seq<Playlist>): (r: seq<string>)
    ensures multiset(r) == multiset(Concat(ps))
    ensures SortedBy(r, NameLe)
  {
    PathOrdersArePreorders();
    SortBySorted(Concat(ps), NameLe);
    SortBy(Concat(ps), NameLe)
  }

  /** The aggregate list is a permutation of the concatenated playlists, in
      basename order, and songs with equal basenames keep their playlist order. */
  lemma AllSongsSpec(ps: seq<Playlist>)
    ensures multiset(GetAllSongs(ps)) == multiset(Concat(ps))
    ensures SortedBy(GetAllSongs(ps), NameLe)
    ensures forall y :: Ties(GetAllSongs(ps), y, NameLe) == Ties(Concat(ps), y, NameLe)
  {
    PathOrdersArePreorders();
    SortBySorted(Concat(ps), NameLe);
    forall y ensures Ties(GetAllSongs(ps), y, NameLe) == Ties(Concat(ps), y, NameLe) {
      SortByStable(Concat(ps), y, NameLe);
    }
  }

  /** Every song of every playlist occurs in the aggregate list, and nothing else does. */
  lemma {:induction false} AllSongsMembers(ps: seq<Playlist>, song: string)
    ensures song in GetAllSongs(ps) <==> exists p :: p in ps && song in p.songs
  {
    assert song in GetAllSongs(ps) <==> song in multiset(Concat(ps));
    ConcatMembers(ps, song);
  }

  lemma {:induction false} ConcatMembers(ps: seq<Playlist>, song: string)
    ensures song in Concat(ps) <==> exists p :: p in ps && song in p.songs
  {
    if |ps| > 0 {
      ConcatMembers(ps[1..], song);
      assert forall p :: p in ps <==> p == ps[0] || p in ps[1..];
    }
  }

  /** The whole scan: playlists first, then the aggregate built from them. */
  function Scan(root: string, rootExists: bool, walk: seq<WalkEntry>): (c: Catalog)
    ensures DistinctNames(c.playlists)
    ensures forall p :: p in c.playlists ==> |p.songs| > 0 && SortedBy(p.songs, PathLe)
    ensures !rootExists ==> c == Catalog([], [])
    ensures multiset(c.allSongs) == multiset(Concat(c.playlists))
    ensures SortedBy(c.allSongs, NameLe)
  {
    var ps := GetAllPlaylists(root, rootExists, walk);
    GroupShape(root, walk);
    AllSongsSpec(ps);
    Catalog(ps, GetAllSongs(ps))
  }

  /** Comparing two strings with a common prefix compares what follows it. */
  lemma {:induction false} LexLeCommonPrefix(p: string, a: string, b: string)
    ensures LexLe(p + a, p + b) == LexLe(a, b)
  {
    if |p| == 0 {
      assert p + a == a && p + b == b;
    } else {
      assert (p + a)[1..] == p[1..] + a;
      assert (p + b)[1..] == p[1..] + b;
      LexLeCommonPrefix(p[1..], a, b);
    }
  }

  /** Path order ignores case: `m/A/1.MP3` sorts before `m/A/2.mp3`. */
  lemma ExampleSortA()
    ensures SortBy(["m/A/2.mp3", "m/A/1.MP3"], PathLe) == ["m/A/1.MP3", "m/A/2.mp3"]
  {
    var x, y := "m/A/2.mp3", "m/A/1.MP3";
    ExamplePathsOutOfOrder();
    SortSwapsTwo(x, y, PathLe);
  }

  lemma ExamplePathsOutOfOrder()
    ensures !PathLe("m/A/2.mp3", "m/A/1.MP3")
  {
    assert Lower("m/A/2.mp3") == "m/a/" + "2.mp3";
    assert Lower("m/A/1.MP3") == "m/a/" + "1.mp3";
    LexLeCommonPrefix("m/a/", "2.mp3", "1.mp3");
  }

  lemma SortSwapsTwo<T>(x: T, y: T, le: (T, T) -> bool)
    requires !le(x, y)
    ensures SortBy([x, y], le) == [y, x]
  {
    var s := [x, y];
    assert s[..1] == [x] && [x][..0] == [];
    assert SortBy([x], le) == [x];
    assert Insert([x], y, le) == Insert([], y, le) + [x];
  }

  /** The aggregate list orders by file name alone: `m/B/1.mp3` comes before
      `m/A/2.mp3` although its directory sorts after. */
  lemma ExampleNameOrder()
    ensures NameLe("m/B/1.mp3", "m/A/2.mp3") && !NameLe("m/A/2.mp3", "m/B/1.mp3")
  {
    ExampleBasenames();
    ExampleLowerNames();
    assert LexLe("1.mp3", "2.mp3") && !LexLe("2.mp3", "1.mp3");
  }

  lemma ExampleBasenames()
    ensures Basename("m/B/1.mp3") == "1.mp3" && Basename("m/A/2.mp3") == "2.mp3"
  {
    BasenameJoin("m/B", "1.mp3");
    BasenameJoin("m/A", "2.mp3");
    assert Join("m/B", "1.mp3") == "m/B/1.mp3" && Join("m/A", "2.mp3") == "m/A/2.mp3";
  }

  lemma ExampleLowerNames()
    ensures Lower("1.mp3") == "1.mp3" && Lower("2.mp3") == "2.mp3"
  {
  }
}

=== FILE: lyrics.dfy ===
/** Timed lyrics: `parse_lyrics` in app/utils/__init__.py and the display
    logic of the player page (`async_update_lyrics_and_cover`, which pads the
    parsed lines with seven blanks, and `update_lyrics_display`, which finds
    the line to highlight and the line to scroll to). */
module Lyrics {
  import opened Common
  import opened Text
  import opened Sorting

  /** One entry of the lyric list: its start offset in milliseconds and its text. */
  datatype LyricLine = LyricLine(start: nat, text: string)

  /** The text shown when a song has no lyrics. */
  const NotFound: string := "歌词未找到"

  /** The number of blank lines put before the lyrics, so that the first real
      line can be scrolled to the middle of the view. */
  const Padding: nat := 7

  // ---------------------------------------------------------------------------
  // One line: the prefix `[min:sec.frac]`

  /** The parts of a line matched by `\[(\d+):(\d+)\.(\d+)\](.*)`. */
  datatype TimeTag = TimeTag(minutes: string, seconds: string, fraction: string, rest: string)

  /** Length of the run of ASCII digits at the start of `s`. */
  function DigitRun(s: string): (n: nat)
    ensures n <= |s|
    ensures forall i :: 0 <= i < n ==> IsDigit(s[i])
    ensures n < |s| ==> !IsDigit(s[n])
  {
    if |s| > 0 && IsDigit(s[0]) then 1 + DigitRun(s[1..]) else 0
  }

  /** `(\d+)` followed by the character `stop`: the digits and what follows `stop`.
      Since `stop` is not a digit, the greedy run is the only way to match. */
  function Field(s: string, stop: char): (r: Option<(string, string)>)
    requires !IsDigit(stop)
    ensures r.Some? ==> IsDigits(r.value.0) && s == r.value.0 + [stop] + r.value.1
  {
    var n := DigitRun(s);
    if 0 < n < |s| && s[n] == stop then
      assert s == s[..n] + [stop] + s[n + 1..];
      Some((s[..n], s[n + 1..]))
    else None
  }

  /** `re.match(r"\[(\d+):(\d+)\.(\d+)\](.*)", line)`: the match anchors at the
      start of the line and `(.*)` takes the rest (a line holds no newline). */
  function MatchTag(line: string): (r: Option<TimeTag>)
    ensures r.Some? ==>
      && IsDigits(r.value.minutes) && IsDigits(r.value.seconds) && IsDigits(r.value.fraction)
      && line == "[" + r.value.minutes + ":" + r.value.seconds + "." + r.value.fraction + "]" + r.value.rest
  {
    if |line| > 0 && line[0] == '[' then
      match Field(line[1..], ':')
      case None => None
      case Some((m, s1)) =>
        match Field(s1, '.')
        case None => None
        case Some((s, s2)) =>
          match Field(s2, ']')
          case None => None
          case Some((f, rest)) =>
            TagShape(line, m, s1, s, s2, f, rest);
            Some(TimeTag(m, s, f, rest))
    else None
  }

  lemma TagShape(line: string, m: string, s1: string, s: string, s2: string, f: string, rest: string)
    requires |line| > 0 && line[0] == '['
    requires line[1..] == m + ":" + s1 && s1 == s + "." + s2 && s2 == f + "]" + rest
    ensures line == "[" + m + ":" + s + "." + f + "]" + rest
  {
    assert line == "[" + line[1..];
  }

  /** The digit run of a digit string followed by a non-digit is the whole string. */
  lemma {:induction false} DigitRunPrefix(d: string, c: char, t: string)
    requires IsDigits(d) && !IsDigit(c)
    ensures DigitRun(d + [c] + t) == |d|
  {
    var s := d + [c] + t;
    if |d| > 1 {
      assert s[1..] == d[1..] + [c] + t;
      DigitRunPrefix(d[1..], c, t);
    } else {
      assert s[1..] == [c] + t;
    }
  }

  lemma FieldOf(d: string, c: char, t: string)
    requires IsDigits(d) && !IsDigit(c)
    ensures Field(d + [c] + t, c) == Some((d, t))
  {
    var s := d + [c] + t;
    DigitRunPrefix(d, c, t);
    assert s[..|d|] == d && s[|d|] == c && s[|d| + 1..] == t;
  }

  /** Every line of the tag's shape matches, with exactly those parts: together
      with the contract of `MatchTag`, the matcher accepts precisely the lines
      the regular expression accepts. */
  lemma MatchTagComplete(m: string, s: string, f: string, rest: string)
    requires IsDigits(m) && IsDigits(s) && IsDigits(f)
    ensures MatchTag("[" + m + ":" + s + "." + f + "]" + rest) == Some(TimeTag(m, s, f, rest))
  {
    var line := "[" + m + ":" + s + "." + f + "]" + rest;
    var s2 := f + "]" + rest;
    var s1 := s + "." + s2;
    assert line[1..] == m + ":" + s1;
    FieldOf(m, ':', s1);
    FieldOf(s, '.', s2);
    FieldOf(f, ']', rest);
  }

  /** The offset of a tag: the fraction digits are added as milliseconds
      without scaling, so `[00:01.5]` is 1005 and not 1500. */
  function Offset(t: TimeTag): nat
    requires IsDigits(t.minutes) && IsDigits(t.seconds) && IsDigits(t.fraction)
  {
    DigitsValue(t.minutes) * 60000 + DigitsValue(t.seconds) * 1000 + DigitsValue(t.fraction)
  }

  /** One line of lyrics text, or `None` when it carries no time tag. */
  function ParseLine(line: string): (r: Option<LyricLine>)
    ensures r.Some? <==> MatchTag(line).Some?
    ensures r.Some? ==> r.value == LyricLine(Offset(MatchTag(line).value), Strip(MatchTag(line).value.rest))
  {
    match MatchTag(line)
    case None => None
    case Some(t) => Some(LyricLine(Offset(t), Strip(t.rest)))
  }

  /** `[01:02.5]hello` starts at 1 * 60000 + 2 * 1000 + 5 = 62005 ms. */
  lemma ParseLineExample()
    ensures ParseLine("[01:02.5]hello") == Some(LyricLine(62005, "hello"))
  {
    var line := "[01:02.5]hello";
    var t := TimeTag("01", "02", "5", "hello");
    ExampleTag();
    ExampleOffset();
    ExampleText();
    assert ParseLine(line) == Some(LyricLine(Offset(t), Strip(t.rest)));
  }

  lemma ExampleOffset()
    ensures Offset(TimeTag("01", "02", "5", "hello")) == 62005
  {
    ExampleDigits();
  }

  lemma ExampleText()
    ensures Strip("hello") == "hello"
  {
    StripUnchanged("hello");
  }

  lemma ExampleTag()
    ensures MatchTag("[01:02.5]hello") == Some(TimeTag("01", "02", "5", "hello"))
  {
    assert "[01:02.5]hello" == "[" + "01" + ":" + "02" + "." + "5" + "]" + "hello";
    MatchTagComplete("01", "02", "5", "hello");
  }

  lemma ExampleDigits()
    ensures DigitsValue("01") == 1 && DigitsValue("02") == 2 && DigitsValue("5") == 5
  {
    assert "01"[..1] == "0" && "02"[..1] == "0" && "5"[..0] == "";
    assert DigitsValue("0") == 0 by { assert "0"[..0] == ""; }
  }

  /** A line without the tag at its very start is dropped. */
  lemma ParseLineRejectsUntagged(line: string)
    requires |line| == 0 || line[0] != '['
    ensures ParseLine(line).None?
  {
  }

  // ---------------------------------------------------------------------------
  // The whole text

  /** The loop of `parse_lyrics`: non-empty lines that carry a time tag, in order. */
  function Collect(lines: seq<string>): (r: seq<LyricLine>)
    ensures |r| <= |lines|
  {
    Harvest(lines, Yield)
  }

  /** What one line contributes: its parse, when the line is non-empty. */
  function Yield(line: string): Option<LyricLine> {
    if line != "" then ParseLine(line) else None
  }

  /** The values `f` gives, in order, skipping `None`. */
  function Harvest<T, U>(xs: seq<T>, f: T -> Option<U>): (r: seq<U>)
    ensures |r| <= |xs|
  {
    if |xs| == 0 then []
    else (if f(xs[0]).Some? then [f(xs[0]).value] else []) + Harvest(xs[1..], f)
  }

  lemma {:induction false} HarvestMembers<T, U>(xs: seq<T>, f: T -> Option<U>, u: U)
    ensures u in Harvest(xs, f) <==> exists i :: 0 <= i < |xs| && f(xs[i]) == Some(u)
  {
    if |xs| > 0 {
      var tail := xs[1..];
      HarvestMembers(tail, f, u);
      if exists i :: 0 <= i < |xs| && f(xs[i]) == Some(u) {
        var i :| 0 <= i < |xs| && f(xs[i]) == Some(u);
        if i > 0 {
          assert tail[i - 1] == xs[i];
        }
      }
      if exists i :: 0 <= i < |tail| && f(tail[i]) == Some(u) {
        var i :| 0 <= i < |tail| && f(tail[i]) == Some(u);
        assert xs[i + 1] == tail[i];
      }
    }
  }

  /** Lines compared by `key=lambda x: x[0]`. */
  predicate StartLe(a: LyricLine, b: LyricLine) {
    a.start <= b.start
  }

  lemma StartLeIsPreorder()
    ensures TotalPreorder(StartLe)
  {
  }

  /** `parse_lyrics(text)`. */
  function ParseLyrics(text: string): (r: seq<LyricLine>)
    ensures multiset(r) == multiset(Collect(Split(text, '\n')))
    ensures SortedBy(r, StartLe)
  {
    StartLeIsPreorder();
    SortBySorted(Collect(Split(text, '\n')), StartLe);
    SortBy(Collect(Split(text, '\n')), StartLe)
  }

  /** A line of the result comes from a line of the text exactly when that
      line is non-empty and tagged. */
  lemma CollectMembers(lines: seq<string>, l: LyricLine)
    ensures l in Collect(lines) <==> exists i :: 0 <= i < |lines| && lines[i] != "" && ParseLine(lines[i]) == Some(l)
  {
    HarvestMembers(lines, Yield, l);
    if exists i :: 0 <= i < |lines| && lines[i] != "" && ParseLine(lines[i]) == Some(l) {
      var i :| 0 <= i < |lines| && lines[i] != "" && ParseLine(lines[i]) == Some(l);
      assert Yield(lines[i]) == Some(l);
    }
  }


  /** Text with no whitespace at either end. */
  predicate Stripped(s: string) {
    |s| > 0 ==> !IsSpace(s[0]) && !IsSpace(s[|s| - 1])
  }

  /** The parsed lyrics: in start order, stable among equal starts, never more
      entries than text lines, each text stripped, and exactly the tagged lines. */
  lemma ParseLyricsSpec(text: string)
    ensures SortedBy(ParseLyrics(text), StartLe)
    ensures forall y :: Ties(ParseLyrics(text), y, StartLe) == Ties(Collect(Split(text, '\n')), y, StartLe)
    ensures multiset(ParseLyrics(text)) == multiset(Collect(Split(text, '\n')))
    ensures |ParseLyrics(text)| <= |Split(text, '\n')|
    ensures forall l :: l in ParseLyrics(text) ==> Stripped(l.text)
    ensures forall l :: l in ParseLyrics(text) <==>
      exists i :: 0 <= i < |Split(text, '\n')| && Split(text, '\n')[i] != "" && ParseLine(Split(text, '\n')[i]) == Some(l)
  {
    var lines := Split(text, '\n');
    var c := Collect(lines);
    StartLeIsPreorder();
    SortBySorted(c, StartLe);
    forall y ensures Ties(ParseLyrics(text), y, StartLe) == Ties(c, y, StartLe) {
      SortByStable(c, y, StartLe);
    }
    forall l ensures l in ParseLyrics(text) <==> exists i :: 0 <= i < |lines| && lines[i] != "" && ParseLine(lines[i]) == Some(l) {
      assert l in ParseLyrics(text) <==> l in multiset(c);
      CollectMembers(lines, l);
    }
    forall l | l in ParseLyrics(text) ensures Stripped(l.text) {
      CollectMembers(lines, l);
    }
  }

  // ---------------------------------------------------------------------------
  // What the page shows

  /** `self.current_lyrics` after a metadata lookup: seven blank lines and the
      parsed lyrics when the lyrics text is non-empty, otherwise the single
      "not found" line. A failed lookup (`None`) shows that line too. */
  function Display(lyrics: Option<string>): (r: seq<LyricLine>)
    ensures |r| > 0
  {
    if lyrics.Some? && lyrics.value != "" then Padded(ParseLyrics(lyrics.value))
    else [LyricLine(0, NotFound)]
  }

  /** Seven blank lines starting at 0, then `lines`. */
  function Padded(lines: seq<LyricLine>): (r: seq<LyricLine>)
    ensures |r| == Padding + |lines|
    ensures forall i :: 0 <= i < Padding ==> r[i] == LyricLine(0, "")
    ensures forall i :: 0 <= i < |lines| ==> r[Padding + i] == lines[i]
    ensures SortedBy(lines, StartLe) ==> SortedBy(r, StartLe)
  {
    var blanks := seq(Padding, _ => LyricLine(0, ""));
    if SortedBy(lines, StartLe) then PaddedSorted(blanks, lines); blanks + lines
    else blanks + lines
  }

  /** The shown list is the blank padding followed by the parsed lyrics, and is
      in start order as a whole. */
  lemma DisplaySpec(text: string)
    requires text != ""
    ensures |Display(Some(text))| == Padding + |ParseLyrics(text)|
    ensures forall i :: 0 <= i < Padding ==> Display(Some(text))[i] == LyricLine(0, "")
    ensures forall i :: 0 <= i < |ParseLyrics(text)| ==> Display(Some(text))[Padding + i] == ParseLyrics(text)[i]
    ensures SortedBy(Display(Some(text)), StartLe)
  {
    ParseLyricsSorted(text);
  }

  lemma ParseLyricsSorted(text: string)
    ensures SortedBy(ParseLyrics(text), StartLe)
  {
    StartLeIsPreorder();
    SortBySorted(Collect(Split(text, '\n')), StartLe);
  }

  lemma PaddedSorted(blanks: seq<LyricLine>, p: seq<LyricLine>)
    requires forall i :: 0 <= i < |blanks| ==> blanks[i].start == 0
    requires SortedBy(p, StartLe)
    ensures SortedBy(blanks + p, StartLe)
  {
    var d := blanks + p;
    forall i, j | 0 <= i < j < |d| ensures StartLe(d[i], d[j]) {
      if i >= |blanks| {
        assert d[i] == p[i - |blanks|] && d[j] == p[j - |blanks|];
      }
    }
  }

  /** The index of the last line whose start is at or before `position`,
      found scanning from the end; -1 when no line has started. */
  function LastStarted(lines: seq<LyricLine>, position: int): (r: int)
    ensures -1 <= r < |lines|
  {
    if |lines| == 0 then -1
    else if lines[|lines| - 1].start <= position then |lines| - 1
    else LastStarted(lines[..|lines| - 1], position)
  }

  /** The line `update_lyrics_display` highlights: the last line whose start
      is at or before `position`, or the first line when none has started. */
  function ActiveLine(lines: seq<LyricLine>, position: int): (r: nat)
    ensures |lines| > 0 ==> r < |lines|
    ensures r > 0 ==> r < |lines| && lines[r].start <= position
    ensures NoneStartedAfter(lines, r, position)
  {
    LastStartedSpec(lines, position);
    var i := LastStarted(lines, position);
    if i == -1 then 0 else i
  }

  /** No line after `k` has started by `position`. */
  predicate NoneStartedAfter(lines: seq<LyricLine>, k: int, position: int) {
    forall j :: 0 <= j < |lines| && k < j ==> lines[j].start > position
  }

  /** `LastStarted` finds the last started line, and -1 exactly when none has started. */
  lemma {:induction false} LastStartedSpec(lines: seq<LyricLine>, position: int)
    ensures var r := LastStarted(lines, position);
      && (r >= 0 ==> lines[r].start <= position)
      && (forall j :: r < j < |lines| ==> lines[j].start > position)
  {
    if |lines| > 0 && lines[|lines| - 1].start > position {
      var init := lines[..|lines| - 1];
      LastStartedSpec(init, position);
      var r := LastStarted(init, position);
      forall j | r < j < |lines| ensures lines[j].start > position {
        if j < |init| {
          assert lines[j] == init[j];
        }
      }
    }
  }

  /** The highlighted line has started and no later line has; when no line has
      started the first one is highlighted. */
  lemma ActiveLineSpec(lines: seq<LyricLine>, position: int)
    requires |lines| > 0
    ensures ActiveLine(lines, position) < |lines|
    ensures (exists i :: 0 <= i < |lines| && lines[i].start <= position) ==>
      && lines[ActiveLine(lines, position)].start <= position
      && forall j :: ActiveLine(lines, position) < j < |lines| ==> lines[j].start > position
    ensures (forall i :: 0 <= i < |lines| ==> lines[i].start > position) ==> ActiveLine(lines, position) == 0
  {
    LastStartedSpec(lines, position);
  }

  /** On lines in start order the highlight never moves backwards as playback advances. */
  lemma ActiveLineMonotone(lines: seq<LyricLine>, p: int, q: int)
    requires SortedBy(lines, StartLe)
    requires p <= q
    ensures ActiveLine(lines, p) <= ActiveLine(lines, q)
  {
    LastStartedSpec(lines, p);
    LastStartedSpec(lines, q);
    var a := LastStarted(lines, p);
    var b := LastStarted(lines, q);
  }

  /** The key `update_lyrics_display` scrolls to: seven lines above the
      highlighted one, and no scrolling while a padding line is highlighted. */
  function ScrollTarget(line: nat): (r: Option<nat>)
    ensures r.Some? <==> line >= Padding
    ensures r.Some? ==> r.value + Padding == line
  {
    if line >= Padding then Some(line - Padding) else None
  }

  /** On a padded display (`Display` pads the parsed lyrics this way), from
      position 0 on the highlight is never above the last padding line, and
      when it is on a lyric the scroll target is that lyric's index in the
      unpadded list. */
  lemma ScrollPadded(lines: seq<LyricLine>, position: int)
    requires position >= 0
    ensures ActiveLine(Padded(lines), position) >= Padding - 1
    ensures var a := ActiveLine(Padded(lines), position);
      a >= Padding ==> ScrollTarget(a).Some? && Padded(lines)[a] == lines[ScrollTarget(a).value]
  {
    var d := Padded(lines);
    LastStartedAtLeast(d, position, Padding - 1);
    ScrollOnLyric(lines, ActiveLine(d, position));
  }

  lemma ScrollOnLyric(lines: seq<LyricLine>, a: nat)
    requires a < Padding + |lines|
    ensures a >= Padding ==> ScrollTarget(a).Some? && Padded(lines)[a] == lines[ScrollTarget(a).value]
  {
    if a >= Padding {
      assert Padded(lines)[Padding + (a - Padding)] == lines[a - Padding];
    }
  }

  /** A line that has started bounds the highlighted line from below. */
  lemma LastStartedAtLeast(lines: seq<LyricLine>, position: int, k: nat)
    requires k < |lines| && lines[k].start <= position
    ensures LastStarted(lines, position) >= k
  {
    LastStartedSpec(lines, position);
  }
}

=== FILE: metadata.dfy ===
/** Song metadata (app/utils/__init__.py): the title formatter
    `format_song_name`, and the decisions of `update_song_metadata` and
    `read_song_metadata`. The ID3 tag of a file is an abstract record of the
    frames the code reads and writes; the search service, the lyrics service
    and the tag save are inputs. */
module Metadata {
  import opened Common
  import opened Text
  import Library

  // ---------------------------------------------------------------------------
  // Titles from file names

  /** `format_song_name(filename)`: drop the extension (the text after the last
      `.`), then a leading `digits.` track number, and strip the result. */
  function FormatSongName(filename: string): (r: string)
    ensures |r| <= |filename|
    ensures |r| > 0 ==> !IsSpace(r[0]) && !IsSpace(r[|r| - 1])
  {
    var stem := BeforeLast(filename, '.');
    if '.' in stem && IsDigits(BeforeFirst(stem, '.')) then
      var title := AfterFirst(stem, '.');
      assert |title| <= |stem|;
      Strip(title)
    else Strip(stem)
  }

  lemma DigitsHaveNoDot(d: string)
    requires IsDigits(d)
    ensures '.' !in d && ':' !in d
  {
  }

  /** A numbered file `n.title.ext` gives its title, stripped, whatever dots the
      title itself holds. */
  lemma FormatNumbered(n: string, title: string, ext: string)
    requires IsDigits(n) && '.' !in ext
    ensures FormatSongName(n + "." + title + "." + ext) == Strip(title)
  {
    var name := n + "." + title + "." + ext;
    var stem := n + "." + title;
    assert name == stem + "." + ext;
    BeforeLastOf(stem, ext);
    DigitsHaveNoDot(n);
    AfterFirstOf(n, title);
  }

  /** A file `stem.ext` whose stem has no dot gives the stem, stripped. */
  lemma FormatUnnumbered(stem: string, ext: string)
    requires '.' !in stem && '.' !in ext
    ensures FormatSongName(stem + "." + ext) == Strip(stem)
  {
    BeforeLastOf(stem, ext);
  }

  /** A file `stem.ext` whose stem does not start with `digits.` gives the
      whole stem, stripped, dots included. */
  lemma FormatOtherDotted(stem: string, ext: string)
    requires '.' !in ext
    requires !('.' in stem && IsDigits(BeforeFirst(stem, '.')))
    ensures FormatSongName(stem + "." + ext) == Strip(stem)
  {
    BeforeLastOf(stem, ext);
  }

  /** A file name without any dot is only stripped. */
  lemma FormatNoDot(filename: string)
    requires '.' !in filename
    ensures FormatSongName(filename) == Strip(filename)
  {
  }

  /** `'Mr. Brightside.mp3'` becomes `'Mr. Brightside'`: the first dot does not
      follow a track number, so it stays. */
  lemma FormatDottedExample()
    ensures FormatSongName("Mr. Brightside.mp3") == "Mr. Brightside"
  {
    DottedExampleShape();
    AfterFirstOf("Mr", " Brightside");
    FormatOtherDotted("Mr. Brightside", "mp3");
    DottedExampleStripped();
  }

  lemma DottedExampleShape()
    ensures "Mr. Brightside" + "." + "mp3" == "Mr. Brightside.mp3"
    ensures "Mr" + "." + " Brightside" == "Mr. Brightside"
    ensures '.' !in "Mr" && '.' !in "mp3" && !IsDigits("Mr")
  {
    assert !IsDigit("Mr"[0]);
  }

  lemma DottedExampleStripped()
    ensures Strip("Mr. Brightside") == "Mr. Brightside"
  {
    var stem := "Mr. Brightside";
    assert !IsSpace(stem[0]) && !IsSpace(stem[|stem| - 1]);
    StripUnchanged(stem);
  }

  lemma BeforeLastOf(stem: string, ext: string)
    requires '.' !in ext
    ensures BeforeLast(stem + "." + ext, '.') == stem
  {
    var s := stem + "." + ext;
    var k := RFind(s, '.');
    assert s[|stem|] == '.';
    assert forall j :: |stem| < j < |s| ==> s[j] == ext[j - |stem| - 1];
    assert k == |stem|;
    assert s[..k] == stem;
  }

  lemma AfterFirstOf(n: string, title: string)
    requires '.' !in n
    ensures BeforeFirst(n + "." + title, '.') == n
    ensures '.' in n + "." + title
    ensures AfterFirst(n + "." + title, '.') == title
  {
    var s := n + "." + title;
    assert s[|n|] == '.';
    assert forall j :: 0 <= j < |n| ==> s[j] == n[j];
    assert Find(s, '.') == |n|;
    assert s[..|n|] == n && s[|n| + 1..] == title;
  }

  /** `'04.白鸽乌鸦相爱的戏码.mp3'` becomes `'白鸽乌鸦相爱的戏码'`. */
  lemma FormatExample()
    ensures FormatSongName("04.白鸽乌鸦相爱的戏码.mp3") == "白鸽乌鸦相爱的戏码"
  {
    ExampleShape();
    FormatNumbered("04", "白鸽乌鸦相爱的戏码", "mp3");
    ExampleTitleStripped();
  }

  lemma ExampleShape()
    ensures "04" + "." + "白鸽乌鸦相爱的戏码" + "." + "mp3" == "04.白鸽乌鸦相爱的戏码.mp3"
    ensures IsDigits("04")
  {
  }

  lemma ExampleTitleStripped()
    ensures Strip("白鸽乌鸦相爱的戏码") == "白鸽乌鸦相爱的戏码"
  {
    var title := "白鸽乌鸦相爱的戏码";
    assert !IsSpace(title[0]) && !IsSpace(title[|title| - 1]);
    StripUnchanged(title);
  }

  // ---------------------------------------------------------------------------
  // The candidate index stored in TSRC as "index:songmid"

  /** `f"{index}:{songmid}"`. */
  function EncodeSourceRef(index: int, songmid: string): string {
    IntToString(index) + ":" + songmid
  }

  /** The index `update_song_metadata` starts from: 0, unless the TSRC frame
      holds a `:` and the text before the first `:` reads as an integer; that
      value is incremented only on a forced refresh. */
  function StoredIndex(tsrc: Option<string>, increment: bool): (r: int)
    ensures tsrc.None? ==> r == 0
    ensures tsrc.Some? && ':' !in tsrc.value ==> r == 0
  {
    match tsrc
    case None => 0
    case Some(t) =>
      if ':' in t then
        match ParseInt(BeforeFirst(t, ':'))
        case None => 0
        case Some(v) => if increment then v + 1 else v
      else 0
  }

  lemma IntTextHasNoColon(i: int)
    ensures ':' !in IntToString(i)
  {
    var d := NatToString(if i < 0 then -i else i);
    DigitsHaveNoDot(d);
  }

  /** What is written reads back: the prefix of `index:songmid` is the index,
      whatever `songmid` holds, plus one on a refresh. */
  lemma SourceRefRoundTrip(index: int, songmid: string, increment: bool)
    ensures StoredIndex(Some(EncodeSourceRef(index, songmid)), increment) == index + (if increment then 1 else 0)
  {
    var d := IntToString(index);
    IntTextHasNoColon(index);
    var s := EncodeSourceRef(index, songmid);
    assert s == d + ":" + songmid;
    assert s[|d|] == ':';
    assert forall j :: 0 <= j < |d| ==> s[j] == d[j];
    assert Find(s, ':') == |d|;
    assert s[..|d|] == d;
    ParseIntRoundTrip(index);
  }

  /** The index after the range check (`current_index >= len(song_list)`
      resets to 0); it is what TSRC records. */
  function ResetIndex(index: int, count: nat): (r: int)
    ensures r == index || r == 0
    ensures r < count || count == 0
    ensures index < count ==> r == index
    ensures index >= count ==> r == 0
  {
    if index >= count then 0 else index
  }

  /** `song_list[index]`'s position, with Python's negative indexing; `None`
      where it raises `IndexError`. */
  function PyIndex(index: int, count: nat): (r: Option<nat>)
    ensures r.Some? <==> -(count as int) <= index < count
    ensures r.Some? ==> r.value < count && (r.value == index || r.value == index + count)
  {
    if 0 <= index < count then Some(index)
    else if -(count as int) <= index < 0 then Some(index + count)
    else None
  }

  /** The search result chosen for a stored index: a non-negative stored index
      always selects a result, the stored one if in range and the first otherwise. */
  lemma ChoiceInRange(index: int, count: nat)
    requires count > 0 && index >= 0
    ensures PyIndex(ResetIndex(index, count), count) == Some(if index < count then index else 0)
  {
  }

  /** Successive refreshes walk through the search results, back to the first
      after the last: the index written by one update, read with the increment,
      selects the next result. */
  lemma RefreshAdvances(index: nat, songmid: string, count: nat)
    requires index < count
    ensures PyIndex(ResetIndex(StoredIndex(Some(EncodeSourceRef(index, songmid)), true), count), count)
      == Some((index + 1) % count)
  {
    SourceRefRoundTrip(index, songmid, true);
    NextChoice(StoredIndex(Some(EncodeSourceRef(index, songmid)), true), index, count);
  }

  lemma NextChoice(next: int, index: nat, count: nat)
    requires index < count && next == index + 1
    ensures ResetIndex(next, count) == (index + 1) % count
    ensures PyIndex(ResetIndex(next, count), count) == Some((index + 1) % count)
  {
    if index + 1 < count {
      assert (index + 1) % count == index + 1;
    } else {
      assert index + 1 == count;
    }
  }

  // ---------------------------------------------------------------------------
  // Tags

  /** A COMM frame: description, language, first text. */
  datatype Comment = Comment(desc: string, lang: string, text: string)

  /** A USLT frame: description, language, text. */
  datatype LyricFrame = LyricFrame(desc: string, lang: string, text: string)

  /** The frames of an ID3 tag the code reads or writes: the first text of
      TIT2, TALB and TSRC, all texts of TPE1, the COMM and USLT frames in tag
      order, and a count of any other frames. */
  datatype Tags = Tags(
    title: Option<string>,
    artists: Option<seq<string>>,
    album: Option<string>,
    tsrc: Option<string>,
    comments: seq<Comment>,
    lyrics: seq<LyricFrame>,
    otherFrames: nat)

  /** What `ID3(path)` gives: no ID3 header, a read error, or the tag. */
  datatype TagFile = NoHeader | Unreadable | Tagged(tags: Tags)

  const EmptyTags: Tags := Tags(None, None, None, None, [], [], 0)

  /** `bool(audio)`: a tag is falsy when it holds no frame at all. */
  predicate HasFrames(t: Tags) {
    t.title.Some? || t.artists.Some? || t.album.Some? || t.tsrc.Some?
      || |t.comments| > 0 || |t.lyrics| > 0 || t.otherFrames > 0
  }

  /** The dictionary `read_song_metadata` and `update_song_metadata` return. */
  datatype Metadata = Metadata(title: string, artist: string, album: string, isrc: string, coverUrl: string, lyrics: string)

  /** `all([...])` over the six fields. */
  predicate Complete(m: Metadata) {
    m.title != "" && m.artist != "" && m.album != "" && m.isrc != "" && m.coverUrl != "" && m.lyrics != ""
  }

  /** `sep.join(parts)`. */
  function JoinText(parts: seq<string>, sep: string): string {
    if |parts| == 0 then ""
    else if |parts| == 1 then parts[0]
    else parts[0] + sep + JoinText(parts[1..], sep)
  }

  /** The text of the first COMM frame described "CoverURL", or "". */
  function CoverOf(comments: seq<Comment>): (r: string)
    ensures r != "" ==> exists c :: c in comments && c.desc == "CoverURL" && c.text == r
    ensures (forall i :: 0 <= i < |comments| ==> comments[i].desc != "CoverURL") ==> r == ""
    ensures forall i :: FirstCoverAt(comments, i) ==> r == comments[i].text
  {
    if |comments| == 0 then ""
    else if comments[0].desc == "CoverURL" then comments[0].text
    else CoverOf(comments[1..])
  }

  /** `comments[i]` is the first COMM frame described "CoverURL". */
  predicate FirstCoverAt(comments: seq<Comment>, i: int) {
    && 0 <= i < |comments| && comments[i].desc == "CoverURL"
    && (forall j :: 0 <= j < i ==> comments[j].desc != "CoverURL")
  }

  /** The lyrics `read_song_metadata` finds: the first USLT frame. (Its probes
      for the keys "USLT::'eng'" and "USLT::'chi'" cannot match, since a USLT
      key ends in a three-letter language code, not a quoted one.) */
  function LyricsOf(frames: seq<LyricFrame>): string {
    if |frames| > 0 then frames[0].text else ""
  }

  /** The fields `read_song_metadata` reads from a tag. */
  function StoredFields(t: Tags): Metadata {
    Metadata(
      t.title.GetOr(""),
      JoinText(t.artists.GetOr([]), ", "),
      t.album.GetOr(""),
      t.tsrc.GetOr(""),
      CoverOf(t.comments),
      LyricsOf(t.lyrics))
  }

  /** `audio.add(COMM(...))`: a frame with the same description and language
      is replaced in place, otherwise the frame is appended. */
  function PutComment(cs: seq<Comment>, c: Comment): (r: seq<Comment>)
    ensures c in r
    ensures forall x :: x in r ==> x == c || x in cs
    ensures forall x :: x in cs && !SameComment(x, c) ==> x in r
    ensures (exists x :: x in cs && x.desc == c.desc && x.lang == c.lang) ==> |r| == |cs|
    ensures (forall i :: 0 <= i < |cs| ==> !SameComment(cs[i], c)) ==> r == cs + [c]
    ensures forall k :: FirstCommentAt(cs, c, k) ==> r == cs[k := c]
  {
    var k := CommentSlot(cs, c);
    if k == |cs| then cs + [c]
    else
      assert FirstCommentAt(cs, c, k);
      assert forall x :: x in cs && !SameComment(x, c) ==> x in cs[k := c] by {
        forall x | x in cs && !SameComment(x, c) ensures x in cs[k := c] {
          var i :| 0 <= i < |cs| && cs[i] == x;
          assert cs[k := c][i] == x;
        }
      }
      assert cs[k := c][k] == c;
      cs[k := c]
  }

  /** Where `c` goes: the position of the first COMM frame keyed like it, or
      the length when there is none. */
  function CommentSlot(cs: seq<Comment>, c: Comment): (k: nat)
    ensures k <= |cs|
    ensures k < |cs| ==> FirstCommentAt(cs, c, k)
    ensures k == |cs| ==> forall i :: 0 <= i < |cs| ==> !SameComment(cs[i], c)
  {
    if |cs| == 0 then 0
    else if SameComment(cs[0], c) then 0
    else 1 + CommentSlot(cs[1..], c)
  }

  /** `cs[k]` is the first frame keyed like `c`. */
  predicate FirstCommentAt(cs: seq<Comment>, c: Comment, k: int) {
    && 0 <= k < |cs| && SameComment(cs[k], c)
    && (forall j :: 0 <= j < k ==> !SameComment(cs[j], c))
  }

  /** `ls[k]` is the first frame keyed like `l`. */
  predicate FirstLyricAt(ls: seq<LyricFrame>, l: LyricFrame, k: int) {
    && 0 <= k < |ls| && SameLyric(ls[k], l)
    && (forall j :: 0 <= j < k ==> !SameLyric(ls[j], l))
  }

  /** Two COMM frames share a key: the same description and language. */
  predicate SameComment(x: Comment, c: Comment) {
    x.desc == c.desc && x.lang == c.lang
  }

  /** Two USLT frames share a key: the same description and language. */
  predicate SameLyric(x: LyricFrame, l: LyricFrame) {
    x.desc == l.desc && x.lang == l.lang
  }

  /** `audio.add(USLT(...))`, keyed by description and language like COMM. */
  function PutLyric(ls: seq<LyricFrame>, l: LyricFrame): (r: seq<LyricFrame>)
    ensures l in r
    ensures forall x :: x in r ==> x == l || x in ls
    ensures |ls| > 0 && ls[0].desc == l.desc && ls[0].lang == l.lang ==> r[0] == l
    ensures |ls| == 0 ==> r == [l]
    ensures forall x :: x in ls && !SameLyric(x, l) ==> x in r
    ensures (forall i :: 0 <= i < |ls| ==> !SameLyric(ls[i], l)) ==> r == ls + [l]
    ensures forall k :: FirstLyricAt(ls, l, k) ==> r == ls[k := l]
  {
    var k := LyricSlot(ls, l);
    if k == |ls| then ls + [l]
    else
      assert FirstLyricAt(ls, l, k);
      assert forall x :: x in ls && !SameLyric(x, l) ==> x in ls[k := l] by {
        forall x | x in ls && !SameLyric(x, l) ensures x in ls[k := l] {
          var i :| 0 <= i < |ls| && ls[i] == x;
          assert ls[k := l][i] == x;
        }
      }
      assert ls[k := l][k] == l;
      ls[k := l]
  }

  /** Where `l` goes: the position of the first USLT frame keyed like it, or
      the length when there is none. */
  function LyricSlot(ls: seq<LyricFrame>, l: LyricFrame): (k: nat)
    ensures k <= |ls|
    ensures k < |ls| ==> FirstLyricAt(ls, l, k)
    ensures k == |ls| ==> forall i :: 0 <= i < |ls| ==> !SameLyric(ls[i], l)
  {
    if |ls| == 0 then 0
    else if SameLyric(ls[0], l) then 0
    else 1 + LyricSlot(ls[1..], l)
  }

  // ---------------------------------------------------------------------------
  // The services

  /** One entry of the search result list: `songmid` (absent or empty is
      rejected), `songname` (absent is written as "" but then fails the
      report), the singer names, `albumname` and `albumcover` (both "" when absent). */
  datatype SearchHit = SearchHit(songmid: Option<string>, songname: Option<string>, singers: seq<string>, albumName: string, albumCover: string)

  /** What the outside world answers: the search's HTTP status and result
      list, the lyric text fetched ("" on any failure), and whether the tag
      save succeeds. */
  datatype Services = Services(searchStatus: int, hits: seq<SearchHit>, lyricText: string, saveOk: bool)

  /** The result, the tag file afterwards, and the keyword sent to the search
      service when it was contacted. */
  datatype Outcome = Outcome(result: Option<Metadata>, file: TagFile, searched: Option<string>)

  /** The tag after a successful lookup: title, artists, album and the source
      reference are overwritten; the cover comment and the lyrics frame are
      written only when non-empty; every other frame is kept. */
  function WriteTags(t: Tags, hit: SearchHit, index: int, songmid: string, lyricText: string): (r: Tags)
    ensures HasFrames(r)
    ensures r.otherFrames == t.otherFrames
    ensures r.title == Some(hit.songname.GetOr("")) && r.artists == Some(hit.singers) && r.album == Some(hit.albumName)
    ensures r.tsrc == Some(EncodeSourceRef(index, songmid))
    ensures hit.albumCover == "" ==> r.comments == t.comments
    ensures hit.albumCover != "" ==> r.comments == PutComment(t.comments, Comment("CoverURL", "eng", hit.albumCover))
    ensures lyricText == "" ==> r.lyrics == t.lyrics
    ensures lyricText != "" ==> r.lyrics == PutLyric(t.lyrics, LyricFrame("Lyrics", "chi", lyricText))
    ensures forall x :: x in t.comments && !(x.desc == "CoverURL" && x.lang == "eng") ==> x in r.comments
    ensures forall x :: x in t.lyrics && !(x.desc == "Lyrics" && x.lang == "chi") ==> x in r.lyrics
  {
    t.(
      title := Some(hit.songname.GetOr("")),
      artists := Some(hit.singers),
      album := Some(hit.albumName),
      tsrc := Some(EncodeSourceRef(index, songmid)),
      comments := if hit.albumCover != "" then PutComment(t.comments, Comment("CoverURL", "eng", hit.albumCover)) else t.comments,
      lyrics := if lyricText != "" then PutLyric(t.lyrics, LyricFrame("Lyrics", "chi", lyricText)) else t.lyrics)
  }

  /** The index an update starts from: the one stored in TSRC, or 0 for a
      file without an ID3 header. */
  function StartIndex(file: TagFile, increment: bool): (r: int)
    ensures !file.Tagged? ==> r == 0
    ensures file.Tagged? ==> r == StoredIndex(file.tags.tsrc, increment)
  {
    if file.Tagged? then StoredIndex(file.tags.tsrc, increment) else 0
  }

  /** The index recorded in TSRC for `count` results: the start index, reset
      to 0 when out of range. */
  function RecordedIndex(file: TagFile, increment: bool, count: nat): int {
    ResetIndex(StartIndex(file, increment), count)
  }

  /** What a lookup with a usable result reports: the chosen result's fields,
      with `index:songmid` as the ISRC. */
  function Reported(hit: SearchHit, index: int, lyricText: string): Metadata
    requires hit.songmid.Some? && hit.songname.Some?
  {
    Metadata(hit.songname.value, JoinText(hit.singers, ", "), hit.albumName,
             EncodeSourceRef(index, hit.songmid.value), hit.albumCover, lyricText)
  }

  /** `update_song_metadata(song_name, song_path, increment_index)`. */
  function UpdateSongMetadata(songName: string, present: bool, file: TagFile, increment: bool, net: Services): (o: Outcome)
    ensures !present ==> o == Outcome(None, file, None)
    ensures o.searched.Some? <==> present && !file.Unreadable?
    ensures o.searched.Some? ==> o.searched.value == songName
    ensures o.file != file ==> o.file.Tagged? && o.searched.Some?
    ensures o.result.Some? ==> o.file.Tagged? && o.file.tags.tsrc == Some(o.result.value.isrc)
    ensures o.file != file ==> UsedHit(file, increment, net)
    ensures o.result.Some? ==> UsedHit(file, increment, net)
    ensures o.result.Some? ==>
      var k := PyIndex(RecordedIndex(file, increment, |net.hits|), |net.hits|).value;
      && net.hits[k].songname.Some?
      && o.result == Some(Reported(net.hits[k], RecordedIndex(file, increment, |net.hits|), net.lyricText))
  {
    if !present || file.Unreadable? then Outcome(None, file, None)
    else
      var index := StartIndex(file, increment);
      var asked := Some(songName);
      if net.searchStatus != 200 || |net.hits| == 0 then Outcome(None, file, asked)
      else
        var stored := ResetIndex(index, |net.hits|);
        match PyIndex(stored, |net.hits|)
        case None => Outcome(None, file, asked)
        case Some(k) =>
          var hit := net.hits[k];
          if hit.songmid.None? || hit.songmid.value == "" then Outcome(None, file, asked)
          else if !net.saveOk then Outcome(None, file, asked)
          else
            var songmid := hit.songmid.value;
            var base := if file.Tagged? then file.tags else EmptyTags;
            var written := Tagged(WriteTags(base, hit, stored, songmid, net.lyricText));
            if hit.songname.None? then Outcome(None, written, asked)
            else
              Outcome(Some(Reported(hit, stored, net.lyricText)), written, asked)
  }

  /** The search succeeded and the result at the recorded index exists and
      has a song id. */
  predicate UsedHit(file: TagFile, increment: bool, net: Services) {
    && net.searchStatus == 200 && |net.hits| > 0
    && var k := PyIndex(RecordedIndex(file, increment, |net.hits|), |net.hits|);
       k.Some? && net.hits[k.value].songmid.Some? && net.hits[k.value].songmid.value != ""
  }

  /** Which result an update writes: the one at the recorded index. The tag
      then carries that result's fields and `index:songmid` for it in TSRC,
      and the frames the result does not touch are kept. */
  lemma UpdateWritesChosenHit(songName: string, file: TagFile, increment: bool, net: Services)
    requires !file.Unreadable? && UsedHit(file, increment, net) && net.saveOk
    ensures var o := UpdateSongMetadata(songName, true, file, increment, net);
      var index := RecordedIndex(file, increment, |net.hits|);
      var hit := net.hits[PyIndex(index, |net.hits|).value];
      var base := if file.Tagged? then file.tags else EmptyTags;
      && o.file == Tagged(WriteTags(base, hit, index, hit.songmid.value, net.lyricText))
      && o.file.tags.tsrc == Some(EncodeSourceRef(index, hit.songmid.value))
      && (o.result.Some? <==> hit.songname.Some?)
  {
  }

  /** `read_song_metadata(song_path, increment_index)`: the stored fields when
      the tag holds all six and no refresh is forced, otherwise a lookup keyed
      by the formatted file name. */
  function ReadSongMetadata(path: string, present: bool, file: TagFile, increment: bool, net: Services): (o: Outcome)
    ensures !present ==> o == Outcome(None, file, None)
    ensures file.Unreadable? ==> o == Outcome(None, file, None)
  {
    if !present then Outcome(None, file, None)
    else if file.Unreadable? then Outcome(None, file, None)
    else if file.Tagged? && HasFrames(file.tags) && !increment && Complete(StoredFields(file.tags)) then
      Outcome(Some(StoredFields(file.tags)), file, None)
    else UpdateSongMetadata(FormatSongName(Library.Basename(path)), present, file, increment, net)
  }

  /** The cache decision: the services are left alone exactly when the file is
      missing or unreadable, or when no refresh is forced and the tag holds all
      six fields; and then the tag is returned as is. */
  lemma CacheHitIff(path: string, present: bool, file: TagFile, increment: bool, net: Services)
    ensures var o := ReadSongMetadata(path, present, file, increment, net);
      && (o.searched.None? <==>
            !present || file.Unreadable? || (file.Tagged? && HasFrames(file.tags) && !increment && Complete(StoredFields(file.tags))))
      && (o.searched.None? && o.result.Some? ==> o.result == Some(StoredFields(file.tags)) && o.file == file)
      && (o.searched.Some? ==> o.searched == Some(FormatSongName(Library.Basename(path))))
  {
  }

  /** A forced refresh of a readable existing file always asks the services. */
  lemma RefreshAlwaysSearches(path: string, file: TagFile, net: Services)
    requires !file.Unreadable?
    ensures ReadSongMetadata(path, true, file, true, net).searched.Some?
  {
  }

  /** No tag frame but ours can shadow what the lookup writes: no other COMM
      frame is described "CoverURL", and every USLT frame is the one the lookup
      writes (description "Lyrics", language "chi"). */
  predicate NoForeignFrames(t: Tags) {
    && (forall c :: c in t.comments && c.desc == "CoverURL" ==> c.lang == "eng")
    && (forall l :: l in t.lyrics ==> l.desc == "Lyrics" && l.lang == "chi")
  }

  lemma CoverAfterPut(cs: seq<Comment>, cover: string)
    requires forall c :: c in cs && c.desc == "CoverURL" ==> c.lang == "eng"
    ensures CoverOf(PutComment(cs, Comment("CoverURL", "eng", cover))) == cover
  {
    var c := Comment("CoverURL", "eng", cover);
    var r := PutComment(cs, c);
    var k := CommentSlot(cs, c);
    assert k < |cs| ==> r == cs[k := c];
    assert k == |cs| ==> r == cs + [c];
    assert FirstCoverAt(r, k);
  }

  /** Caching works: once a lookup has stored a complete result in a tag that
      holds no shadowing frames, reading the file again returns that result
      from the tag without asking the services. */
  lemma UpdateThenReadHits(path: string, file: TagFile, net: Services, later: Services)
    requires !file.Unreadable?
    requires file.Tagged? ==> NoForeignFrames(file.tags)
    requires var o := UpdateSongMetadata(FormatSongName(Library.Basename(path)), true, file, false, net);
      o.result.Some? && Complete(o.result.value)
    ensures var o := UpdateSongMetadata(FormatSongName(Library.Basename(path)), true, file, false, net);
      ReadSongMetadata(path, true, o.file, false, later) == Outcome(o.result, o.file, None)
  {
    var name := FormatSongName(Library.Basename(path));
    var o := UpdateSongMetadata(name, true, file, false, net);
    var m := o.result.value;
    var index := RecordedIndex(file, false, |net.hits|);
    var hit := net.hits[PyIndex(index, |net.hits|).value];
    var base := if file.Tagged? then file.tags else EmptyTags;
    UpdateWritesChosenHit(name, file, false, net);
    assert m == Reported(hit, index, net.lyricText);
    var t := WriteTags(base, hit, index, hit.songmid.value, net.lyricText);
    assert o.file == Tagged(t);
    CoverAfterPut(base.comments, m.coverUrl);
    LyricsAfterPut(base.lyrics, m.lyrics);
    assert StoredFields(t) == m;
  }

  lemma LyricsAfterPut(ls: seq<LyricFrame>, text: string)
    requires forall l :: l in ls ==> l.desc == "Lyrics" && l.lang == "chi"
    ensures LyricsOf(PutLyric(ls, LyricFrame("Lyrics", "chi", text))) == text
  {
    var l := LyricFrame("Lyrics", "chi", text);
    if |ls| > 0 {
      assert ls[0] in ls;
      assert FirstLyricAt(ls, l, 0);
    }
  }

  /** A forced refresh of a file whose TSRC records result `i` of the search
      moves on to result `i + 1`, wrapping to the first after the last, and a
      successful refresh records that new index. */
  lemma RefreshMovesToNextHit(path: string, t: Tags, i: nat, songmid: string, net: Services)
    requires t.tsrc == Some(EncodeSourceRef(i, songmid)) && i < |net.hits|
    requires net.searchStatus == 200
    ensures RecordedIndex(Tagged(t), true, |net.hits|) == (i + 1) % |net.hits|
    ensures var next := net.hits[(i + 1) % |net.hits|];
      var o := ReadSongMetadata(path, true, Tagged(t), true, net);
      next.songmid.Some? && next.songmid.value != "" && net.saveOk ==>
        && o.file.Tagged?
        && o.file.tags.tsrc == Some(EncodeSourceRef((i + 1) % |net.hits|, next.songmid.value))
        && StoredIndex(o.file.tags.tsrc, false) == (i + 1) % |net.hits|
  {
    var n := |net.hits|;
    SourceRefRoundTrip(i, songmid, true);
    NextChoice(StartIndex(Tagged(t), true), i, n);
    var next := net.hits[(i + 1) % n];
    if next.songmid.Some? && next.songmid.value != "" && net.saveOk {
      assert UsedHit(Tagged(t), true, net);
      UpdateWritesChosenHit(FormatSongName(Library.Basename(path)), Tagged(t), true, net);
      SourceRefRoundTrip((i + 1) % n, next.songmid.value, false);
    }
  }
}

=== FILE: player.dfy ===
/** The navigation state machine of the music player page
    (`MusicPlayer` in app/pages/player.py): which playlist is active, which
    song of it is current, the play modes, and what is sent to the audio
    control. Widgets are not modelled; the audio control is the log of
    commands sent to it, and `config.Music` is the typed record
    `MusicSettings`. */
module Player {
  import opened Common
  import opened Text
  import opened Library
  import opened Resume

  /** The `Music` settings the player reads and writes. */
  datatype MusicSettings = MusicSettings(
    shuffle: bool,
    repeat: bool,
    singleRepeat: bool,
    currentPlaylist: string,
    currentSongPath: string,
    lastPosition: int,
    volume: real,
    states: Records)

  /** What the player tells the `ft.Audio` control, and the detached metadata
      task it starts (with the refresh flag it passes). */
  datatype Command =
    | Play
    | Pause
    | Seek(ms: int)
    | SetSource(path: string)
    | SetVolume(volume: real)
    | FetchMetadata(refresh: bool)

  datatype State = State(
    catalog: Catalog,
    playlist: string,
    index: nat,
    shuffle: bool,
    repeat: bool,
    singleRepeat: bool,
    playing: bool,
    mute: bool,
    settings: MusicSettings,
    audio: seq<Command>)

  /** The songs of the active playlist (`[]` for an unknown name). */
  function Active(p: State): seq<string> {
    Songs(p.catalog, p.playlist).GetOr([])
  }

  /** The catalog as the scan builds it: playlist names distinct, every
      playlist non-empty, and the aggregate list holding exactly their songs. */
  predicate WellFormed(c: Catalog) {
    && DistinctNames(c.playlists)
    && (forall q :: q in c.playlists ==> |q.songs| > 0)
    && multiset(c.allSongs) == multiset(Concat(c.playlists))
  }

  /** A name the player may have active: the aggregate list or a playlist. */
  predicate Known(c: Catalog, name: string) {
    name == AllSongsName || Lookup(c.playlists, name).Some?
  }

  /** The player invariant: a known playlist is active and the index is a
      position in it (0 when it is empty). */
  predicate Valid(p: State) {
    && WellFormed(p.catalog)
    && Known(p.catalog, p.playlist)
    && (|Active(p)| > 0 ==> p.index < |Active(p)|)
    && (|Active(p)| == 0 ==> p.index == 0)
  }

  /** The mode flags agree with their persisted settings. */
  predicate Synced(p: State) {
    p.shuffle == p.settings.shuffle && p.repeat == p.settings.repeat && p.singleRepeat == p.settings.singleRepeat
  }

  /** On a well-formed catalog a known playlist is empty exactly when the
      library is, and all its songs are in the aggregate list. */
  lemma KnownSongs(c: Catalog, name: string)
    requires WellFormed(c) && Known(c, name)
    ensures var songs := Songs(c, name).GetOr([]);
      && (|songs| > 0 <==> |c.allSongs| > 0)
      && forall s :: s in songs ==> s in c.allSongs
  {
    if name != AllSongsName {
      var songs := Lookup(c.playlists, name).value;
      LookupMember(c.playlists, name);
      var q :| q in c.playlists && q.name == name && q.songs == songs;
      forall s | s in songs ensures s in c.allSongs {
        ConcatMembers(c.playlists, s);
        assert s in multiset(Concat(c.playlists));
      }
      if |c.allSongs| > 0 {
        assert c.allSongs[0] in multiset(Concat(c.playlists));
      }
    }
  }

  // ---------------------------------------------------------------------------
  // The current song

  datatype Current = Current(song: string, index: nat)

  /** `get_current_song`: the song at the index and the index afterwards. With
      no songs at all, "". An index outside the active list is reset to 0
      and the first song returned, or "" when the list is empty or unknown. */
  function CurrentSong(p: State): (r: Current)
    ensures |p.catalog.allSongs| == 0 ==> r == Current("", p.index)
    ensures |p.catalog.allSongs| > 0 && p.index < |Active(p)| ==> r == Current(Active(p)[p.index], p.index)
    ensures |p.catalog.allSongs| > 0 && p.index >= |Active(p)| ==>
      r.index == 0 && r.song == (if |Active(p)| > 0 then Active(p)[0] else "")
  {
    var all := p.catalog.allSongs;
    if |all| == 0 then Current("", p.index)
    else if p.playlist == AllSongsName then
      if p.index < |all| then Current(all[p.index], p.index) else Current(all[0], 0)
    else
      match Lookup(p.catalog.playlists, p.playlist)
      case None => Current("", 0)
      case Some(songs) =>
        if p.index < |songs| then Current(songs[p.index], p.index)
        else if |songs| > 0 then Current(songs[0], 0)
        else Current("", 0)
  }

  /** In a valid state the index never needs resetting: the current song is
      the active list's entry at the index, and it is a song of the library. */
  lemma CurrentSongValid(p: State)
    requires Valid(p)
    ensures |Active(p)| > 0 <==> |p.catalog.allSongs| > 0
    ensures CurrentSong(p).index == p.index
    ensures |Active(p)| > 0 ==> CurrentSong(p).song == Active(p)[p.index] && CurrentSong(p).song in p.catalog.allSongs
  {
    KnownSongs(p.catalog, p.playlist);
  }

  // ---------------------------------------------------------------------------
  // Playing

  /** `toggle_play_pause`. */
  function TogglePlayPause(p: State): (r: State)
    ensures r.playing == !p.playing
    ensures r.audio == p.audio + [if p.playing then Pause else Play]
    ensures r.(playing := p.playing, audio := p.audio) == p
  {
    p.(playing := !p.playing, audio := p.audio + [if p.playing then Pause else Play])
  }

  /** Two toggles give back the playing flag and everything else, having sent
      a pause and a play in the order the first state calls for. */
  lemma ToggleTwice(p: State)
    ensures TogglePlayPause(TogglePlayPause(p)) == p.(audio := p.audio + (if p.playing then [Pause, Play] else [Play, Pause]))
  {
  }

  /** `_save_playlist_state` with the position the audio control reports. */
  function SavePlaylistState(p: State, position: int): (r: State)
    ensures r.index == CurrentSong(p).index
    ensures p.playlist in r.settings.states && r.settings.states[p.playlist] == Record(CurrentSong(p).song, position)
    ensures forall k :: k != p.playlist ==> (k in r.settings.states <==> k in p.settings.states)
    ensures forall k :: k != p.playlist && k in p.settings.states ==> r.settings.states[k] == p.settings.states[k]
    ensures r.settings.currentSongPath == CurrentSong(p).song && r.settings.lastPosition == position
    ensures r.(index := p.index, settings := p.settings) == p
    ensures r.settings == p.settings.(states := Save(p.settings.states, p.playlist, CurrentSong(p).song, position),
                                      currentSongPath := CurrentSong(p).song, lastPosition := position)
  {
    var cur := CurrentSong(p);
    p.(index := cur.index,
       settings := p.settings.(
         states := Save(p.settings.states, p.playlist, cur.song, position),
         currentSongPath := cur.song,
         lastPosition := position))
  }

  /** Saving records the current song under the active playlist, so that a
      later restore of that playlist comes back to the same song. */
  lemma SaveThenRestorePlayer(p: State, position: int)
    requires Valid(p) && |Active(p)| > 0
    requires Active(p)[p.index] != ""
    ensures var r := SavePlaylistState(p, position);
      && r.index == p.index
      && r.settings.states[p.playlist] == Record(Active(p)[p.index], position)
      && Active(p)[Restore(r.settings.states, p.playlist, Active(p)).index] == Active(p)[p.index]
  {
    CurrentSongValid(p);
    SaveThenRestore(p.settings.states, p.playlist, Active(p), Active(p)[p.index], position);
  }

  /** `set_new_song`: pause if playing, load the current song, save the resume
      record, play, and start the metadata task. */
  function SetNewSong(p: State, position: int): (r: State)
    ensures r.playing
    ensures r.catalog == p.catalog && r.playlist == p.playlist && r.mute == p.mute
    ensures r.shuffle == p.shuffle && r.repeat == p.repeat && r.singleRepeat == p.singleRepeat
    ensures r.settings.shuffle == p.settings.shuffle && r.settings.repeat == p.settings.repeat
    ensures r.settings.singleRepeat == p.settings.singleRepeat && r.settings.currentPlaylist == p.settings.currentPlaylist
    ensures var cur := CurrentSong(p);
      && r.index == cur.index
      && r.audio == p.audio + (if p.playing then [Pause] else []) + [SetSource(cur.song), Play, FetchMetadata(false)]
      && r.settings.states == Save(p.settings.states, p.playlist, cur.song, position)
    ensures r.settings == p.settings.(states := Save(p.settings.states, p.playlist, CurrentSong(p).song, position),
                                      currentSongPath := CurrentSong(p).song, lastPosition := position)
  {
    var p1 := if p.playing then TogglePlayPause(p) else p;
    var cur := CurrentSong(p1);
    var p2 := p1.(index := cur.index, audio := p1.audio + [SetSource(cur.song)]);
    var p3 := SavePlaylistState(p2, position);
    var p4 := TogglePlayPause(p3);
    p4.(audio := p4.audio + [FetchMetadata(false)])
  }

  lemma SetNewSongValid(p: State, position: int)
    requires Valid(p)
    ensures Valid(SetNewSong(p, position))
    ensures |Active(p)| > 0 ==> CurrentSong(SetNewSong(p, position)).song == Active(p)[p.index]
  {
    CurrentSongValid(p);
    var r := SetNewSong(p, position);
    assert Active(r) == Active(p);
  }

  // ---------------------------------------------------------------------------
  // Next and previous

  /** The index after `next_song` (`forward`) or `previous_song` on a list of
      `n` songs. Under shuffle, `draw` is the random index the loop settled
      on; otherwise the index wraps around. */
  function Step(i: nat, n: nat, forward: bool, shuffle: bool, draw: nat): (r: nat)
    requires n > 0
    requires shuffle && n > 1 ==> draw < n && draw != i
    ensures r < n
    ensures shuffle && n > 1 ==> r != i
    ensures shuffle && n == 1 ==> r == 0
  {
    if shuffle then (if n > 1 then draw else 0)
    else if forward then (i + 1) % n
    else (i - 1) % n
  }

  /** Without shuffle, next moves one place on and wraps from the last song
      to the first. */
  lemma StepForward(i: nat, n: nat, draw: nat)
    requires i < n
    ensures Step(i, n, true, false, draw) == if i + 1 < n then i + 1 else 0
  {
    if i + 1 == n {
      ModSelf(n);
    } else {
      ModBelow(i + 1, n);
    }
  }

  /** Without shuffle, previous moves one place back and wraps from the first
      song to the last. */
  lemma StepBackward(i: nat, n: nat, draw: nat)
    requires i < n
    ensures Step(i, n, false, false, draw) == if i > 0 then i - 1 else n - 1
  {
    if i == 0 {
      ModMinusOne(n);
    } else {
      ModBelow(i - 1, n);
    }
  }

  lemma ModBelow(x: int, n: int)
    requires 0 <= x < n
    ensures x % n == x
  {
  }

  lemma ModSelf(n: int)
    requires n > 0
    ensures n % n == 0
  {
  }

  lemma ModMinusOne(n: int)
    requires n > 0
    ensures (-1) % n == n - 1
  {
  }

  /** Without shuffle, previous undoes next and next undoes previous. */
  lemma StepInverse(i: nat, n: nat, draw: nat)
    requires i < n
    ensures Step(Step(i, n, true, false, draw), n, false, false, draw) == i
    ensures Step(Step(i, n, false, false, draw), n, true, false, draw) == i
  {
    StepForward(i, n, draw);
    StepBackward(Step(i, n, true, false, draw), n, draw);
    StepBackward(i, n, draw);
    StepForward(Step(i, n, false, false, draw), n, draw);
  }

  /** `k` presses of next without shuffle. */
  function NextTimes(i: nat, n: nat, k: nat): (r: nat)
    requires i < n
    ensures r < n
  {
    if k == 0 then i else Step(NextTimes(i, n, k - 1), n, true, false, 0)
  }

  /** Presses before the end of the list move one place each. */
  lemma {:induction false} NextTimesRun(i: nat, n: nat, k: nat)
    requires i + k < n
    ensures NextTimes(i, n, k) == i + k
  {
    if k > 0 {
      NextTimesRun(i, n, k - 1);
      StepForward(i + k - 1, n, 0);
    }
  }

  lemma {:induction false} NextTimesCompose(i: nat, n: nat, a: nat, b: nat)
    requires i < n
    ensures NextTimes(i, n, a + b) == NextTimes(NextTimes(i, n, a), n, b)
  {
    if b > 0 {
      NextTimesCompose(i, n, a, b - 1);
    }
  }

  /** `n` presses of next come back to the song they started from, and on the
      way every song of the list is played. */
  lemma NextCycles(i: nat, n: nat, j: nat)
    requires i < n && j < n
    ensures NextTimes(i, n, n) == i
    ensures exists k :: 0 <= k < n && NextTimes(i, n, k) == j
  {
    var toEnd := n - 1 - i;
    NextTimesRun(i, n, toEnd);
    NextTimesCompose(i, n, toEnd, 1);
    StepForward(n - 1, n, 0);
    assert NextTimes(i, n, toEnd + 1) == 0;
    NextTimesCompose(i, n, toEnd + 1, i);
    NextTimesRun(0, n, i);
    assert toEnd + 1 + i == n;
    if j >= i {
      NextTimesRun(i, n, j - i);
    } else {
      NextTimesCompose(i, n, toEnd + 1, j);
      NextTimesRun(0, n, j);
      assert NextTimes(i, n, toEnd + 1 + j) == j;
    }
  }

  /** The random index is usable: under shuffle with more than one song it is
      a position of the list other than the current one. */
  predicate DrawFits(p: State, draw: nat) {
    p.shuffle && |Active(p)| > 1 ==> draw < |Active(p)| && draw != p.index
  }

  /** `next_song` (`forward`) and `previous_song`: nothing on an empty list,
      otherwise step the index and play the song there. */
  function Navigate(p: State, forward: bool, draw: nat, position: int): (r: State)
    requires DrawFits(p, draw)
    ensures |Active(p)| == 0 ==> r == p
    ensures |Active(p)| > 0 ==>
      && r.playing && r.playlist == p.playlist && r.catalog == p.catalog
      && r.index < |Active(p)|
      && (!p.shuffle && forward ==> r.index == (p.index + 1) % |Active(p)|)
      && (!p.shuffle && !forward ==> r.index == (p.index - 1) % |Active(p)|)
      && (p.shuffle && |Active(p)| > 1 ==> r.index != p.index)
      && (p.shuffle && |Active(p)| == 1 ==> r.index == 0)
  {
    var n := |Active(p)|;
    if n == 0 then p
    else
      var k := Step(p.index, n, forward, p.shuffle, draw);
      assert !p.shuffle ==> k == if forward then (p.index + 1) % n else (p.index - 1) % n;
      var q := p.(index := k);
      assert Active(q) == Active(p);
      assert CurrentSong(q).index == k;
      var r := SetNewSong(q, position);
      assert r.index == k && r.playing;
      r
  }

  lemma NavigateValid(p: State, forward: bool, draw: nat, position: int)
    requires Valid(p) && DrawFits(p, draw)
    ensures Valid(Navigate(p, forward, draw, position))
    ensures |Active(p)| > 0 ==> CurrentSong(Navigate(p, forward, draw, position)).song == Active(p)[Navigate(p, forward, draw, position).index]
  {
    var n := |Active(p)|;
    if n > 0 {
      var q := p.(index := Step(p.index, n, forward, p.shuffle, draw));
      assert Active(q) == Active(p);
      SetNewSongValid(q, position);
      CurrentSongValid(SetNewSong(q, position));
      KnownSongs(p.catalog, p.playlist);
    }
  }

  /** The rejection loop of the shuffle branch: `draws` are the successive
      values of `random.randint(0, n - 1)`; the loop takes the first one that
      differs from the current index. */
  method ShuffleDraw(draws: seq<nat>, n: nat, current: nat) returns (k: nat, used: nat)
    requires n > 1
    requires forall j :: 0 <= j < |draws| ==> draws[j] < n
    requires exists j :: 0 <= j < |draws| && draws[j] != current
    ensures k < n && k != current
    ensures 0 < used <= |draws| && k == draws[used - 1]
    ensures forall j :: 0 <= j < used - 1 ==> draws[j] == current
  {
    k := current;
    used := 0;
    while k == current
      invariant used <= |draws|
      invariant used > 0 ==> k == draws[used - 1]
      invariant used == 0 ==> k == current
      invariant forall j :: 0 <= j < used - 1 ==> draws[j] == current
      invariant k == current ==> exists j :: used <= j < |draws| && draws[j] != current
      decreases |draws| - used
    {
      k := draws[used];
      used := used + 1;
    }
  }

  // ---------------------------------------------------------------------------
  // Choosing a song or a playlist

  /** `select_song`: make `path` current when the active list holds it, then
      play. An unknown named playlist raises `KeyError`, which is swallowed
      before anything changes. */
  function SelectSong(p: State, path: string, position: int): (r: State)
    ensures Songs(p.catalog, p.playlist).None? ==> r == p
    ensures Songs(p.catalog, p.playlist).Some? ==> r.playing && r.playlist == p.playlist && r.catalog == p.catalog
    ensures path in Active(p) ==> r.index == IndexOf(Active(p), path)
    ensures Songs(p.catalog, p.playlist).Some? && path !in Active(p) ==> r.index == CurrentSong(p).index
  {
    match Songs(p.catalog, p.playlist)
    case None => p
    case Some(songs) =>
      var q := p.(index := if path in songs then IndexOf(songs, path) else p.index);
      assert Active(q) == songs;
      SetNewSong(q, position)
  }

  /** Choosing a song of the active list plays it. */
  lemma SelectSongPlays(p: State, path: string, position: int)
    requires Valid(p) && path in Active(p)
    ensures CurrentSong(SelectSong(p, path, position)).song == path
  {
    var songs := Active(p);
    var q := p.(index := IndexOf(songs, path));
    assert Active(q) == songs;
    SetNewSongValid(q, position);
  }

  lemma SelectSongValid(p: State, path: string, position: int)
    requires Valid(p)
    ensures Valid(SelectSong(p, path, position))
  {
    match Songs(p.catalog, p.playlist)
    case None =>
    case Some(songs) =>
      var q := p.(index := if path in songs then IndexOf(songs, path) else p.index);
      assert Active(q) == songs;
      assert Valid(q);
      SetNewSongValid(q, position);
      assert SelectSong(p, path, position) == SetNewSong(q, position);
  }

  /** `show_playlist` as written: `current_playlist` is switched before
      `get_current_song` is asked for the song to keep, so what is kept is the
      new list's entry at the old index, not the song that was playing. An
      empty or unknown target only saves the resume record. Playback is never
      touched. */
  function ShowPlaylist(p: State, name: string, position: int): (r: State)
    ensures name == p.playlist ==> r == p
    ensures r.playing == p.playing && r.audio == p.audio && r.catalog == p.catalog
    ensures name != p.playlist && |Songs(p.catalog, name).GetOr([])| == 0 ==>
      r.playlist == p.playlist && r.index == CurrentSong(p).index
    ensures name != p.playlist && |Songs(p.catalog, name).GetOr([])| > 0 ==>
      && r.playlist == name && r.settings.currentPlaylist == name
      && r.index < |Songs(p.catalog, name).GetOr([])|
    ensures name != p.playlist ==>
      r.settings.states == Save(p.settings.states, p.playlist, CurrentSong(p).song, position)
    ensures r.shuffle == p.shuffle && r.repeat == p.repeat && r.singleRepeat == p.singleRepeat && r.mute == p.mute
    ensures name != p.playlist ==>
      r.settings == p.settings.(states := Save(p.settings.states, p.playlist, CurrentSong(p).song, position),
                                currentSongPath := CurrentSong(p).song, lastPosition := position,
                                currentPlaylist := if |Songs(p.catalog, name).GetOr([])| > 0 then name else p.settings.currentPlaylist)
  {
    if name == p.playlist then p else SwitchTo(SavePlaylistState(p, position), name)
  }

  /** The part of `show_playlist` after the save: a non-empty target becomes
      current and persisted, keeping the new list's entry at the old index. */
  function SwitchTo(p: State, name: string): (r: State)
    ensures |Songs(p.catalog, name).GetOr([])| == 0 ==> r == p
    ensures |Songs(p.catalog, name).GetOr([])| > 0 ==>
      && r.playlist == name && r.index < |Songs(p.catalog, name).GetOr([])|
      && r == p.(playlist := name, index := r.index, settings := p.settings.(currentPlaylist := name))
  {
    var newSongs := Songs(p.catalog, name).GetOr([]);
    if |newSongs| == 0 then p
    else
      var p2 := p.(playlist := name);
      assert Active(p2) == newSongs;
      var cur := CurrentSong(p2);
      var index := if cur.song != "" && cur.song in newSongs then IndexOf(newSongs, cur.song) else 0;
      p2.(index := index, settings := p.settings.(currentPlaylist := name))
  }

  /** What the switch keeps, as written: the new list's entry at the old
      index when the new list is that long (its first occurrence, should the
      list repeat that entry; so the old index itself on a list without
      repetitions), otherwise the first song. An empty or unknown target
      leaves the playlist and the index as they were. */
  lemma ShowPlaylistKeepsIndex(p: State, name: string, position: int)
    requires Valid(p) && name != p.playlist
    ensures var songs, r := Songs(p.catalog, name).GetOr([]), ShowPlaylist(p, name, position);
      && (|songs| == 0 ==> r.playlist == p.playlist && r.index == p.index)
      && (|songs| > 0 ==>
            r.index == (if p.index < |songs| && songs[p.index] != "" then IndexOf(songs, songs[p.index]) else 0))
      && (|songs| > 0 && (forall a, b :: 0 <= a < b < |songs| ==> songs[a] != songs[b]) ==>
            r.index == (if p.index < |songs| && songs[p.index] != "" then p.index else 0))
  {
    var songs := Songs(p.catalog, name).GetOr([]);
    ShowPlaylistIndex(p, name, position);
    if p.index < |songs| && (forall a, b :: 0 <= a < b < |songs| ==> songs[a] != songs[b]) {
      IndexOfDistinct(songs, p.index);
    }
  }

  lemma ShowPlaylistIndex(p: State, name: string, position: int)
    requires Valid(p) && name != p.playlist
    ensures var songs, r := Songs(p.catalog, name).GetOr([]), ShowPlaylist(p, name, position);
      && (|songs| == 0 ==> r.playlist == p.playlist && r.index == p.index)
      && (|songs| > 0 ==>
            r.index == (if p.index < |songs| && songs[p.index] != "" then IndexOf(songs, songs[p.index]) else 0))
  {
    CurrentSongValid(p);
    var songs := Songs(p.catalog, name).GetOr([]);
    if |songs| > 0 {
      var p2 := SavePlaylistState(p, position).(playlist := name);
      assert Active(p2) == songs;
    }
  }

  /** In a list without repetitions, an entry's first position is its position. */
  lemma IndexOfDistinct(songs: seq<string>, k: nat)
    requires k < |songs|
    requires forall a, b :: 0 <= a < b < |songs| ==> songs[a] != songs[b]
    ensures IndexOf(songs, songs[k]) == k
  {
  }

  lemma ShowPlaylistValid(p: State, name: string, position: int)
    requires Valid(p)
    ensures Valid(ShowPlaylist(p, name, position))
  {
    CurrentSongValid(p);
    var songs := Songs(p.catalog, name).GetOr([]);
    if name != p.playlist && |songs| > 0 {
      var r := ShowPlaylist(p, name, position);
      assert Known(p.catalog, name);
      assert Active(r) == songs;
    }
  }

  /** The switch the comments of `show_playlist` describe: the song playing
      before the switch stays current when the new list holds it. */
  function ShowPlaylistIntended(p: State, name: string, position: int): (r: State)
    ensures name == p.playlist ==> r == p
    ensures r.playing == p.playing && r.audio == p.audio && r.catalog == p.catalog
    ensures name != p.playlist && |Songs(p.catalog, name).GetOr([])| > 0 ==>
      && r.playlist == name && r.settings.currentPlaylist == name
      && r.index < |Songs(p.catalog, name).GetOr([])|
      && (CurrentSong(p).song != "" && CurrentSong(p).song in Songs(p.catalog, name).GetOr([]) ==>
            CurrentSong(r).song == CurrentSong(p).song)
  {
    if name == p.playlist then p
    else
      var p1 := SavePlaylistState(p, position);
      var playing := CurrentSong(p).song;
      var newSongs := Songs(p1.catalog, name).GetOr([]);
      if |newSongs| == 0 then p1
      else
        var index := if playing != "" && playing in newSongs then IndexOf(newSongs, playing) else 0;
        var r := p1.(playlist := name, index := index, settings := p1.settings.(currentPlaylist := name));
        assert Active(r) == newSongs;
        r
  }

  /** Playlist B holds `B/a.mp3` and `B/c.mp3`, and `B/c.mp3` (index 1) is
      playing. Switching to the aggregate list `[B/a.mp3, A/b.mp3, B/c.mp3]`
      makes `A/b.mp3` current, although the aggregate list holds `B/c.mp3`;
      the intended switch keeps `B/c.mp3`. */
  lemma ShowPlaylistLosesSong()
    ensures var p := ExampleState();
      && CurrentSong(p).song == "B/c.mp3"
      && "B/c.mp3" in p.catalog.allSongs
      && CurrentSong(ShowPlaylist(p, AllSongsName, 0)).song == "A/b.mp3"
      && CurrentSong(ShowPlaylistIntended(p, AllSongsName, 0)).song == "B/c.mp3"
  {
    var p := ExampleState();
    var all := p.catalog.allSongs;
    assert Lookup(p.catalog.playlists, "B") == Some(["B/a.mp3", "B/c.mp3"]);
    assert CurrentSong(p).song == "B/c.mp3";
    assert all[1] == "A/b.mp3" && all[2] == "B/c.mp3";
    assert IndexOf(all, "A/b.mp3") == 1;
    assert IndexOf(all, "B/c.mp3") == 2;
  }

  function ExampleState(): State {
    var c := Catalog([Playlist("A", ["A/b.mp3"]), Playlist("B", ["B/a.mp3", "B/c.mp3"])],
                     ["B/a.mp3", "A/b.mp3", "B/c.mp3"]);
    var s := MusicSettings(false, false, false, "B", "", 0, 1.0, map[]);
    State(c, "B", 1, false, false, false, true, false, s, [])
  }

  // ---------------------------------------------------------------------------
  // Track completion and the modes

  /** `update_play_state`: on "completed", single-repeat replays the song from
      the start, otherwise a player not in repeat mode moves to the next song,
      and in repeat mode nothing happens. Other events change nothing. */
  function OnStateChanged(p: State, event: string, draw: nat, position: int): (r: State)
    requires DrawFits(p, draw)
    ensures event != "completed" ==> r == p
    ensures event == "completed" && p.singleRepeat ==>
      r == p.(audio := p.audio + [Seek(0), Play])
    ensures event == "completed" && !p.singleRepeat && p.repeat ==> r == p
    ensures event == "completed" && !p.singleRepeat && !p.repeat ==> r == Navigate(p, true, draw, position)
  {
    if event == "completed" then
      if p.singleRepeat then p.(audio := p.audio + [Seek(0), Play])
      else if !p.repeat then Navigate(p, true, draw, position)
      else p
    else p
  }

  /** A finished song, with no repeat mode and no shuffle, is followed by the
      next one in the list, wrapping to the first after the last. */
  lemma CompletionAdvances(p: State, draw: nat, position: int)
    requires Valid(p) && |Active(p)| > 0
    requires !p.shuffle && !p.singleRepeat && !p.repeat
    ensures var r := OnStateChanged(p, "completed", draw, position);
      && r.playing && r.playlist == p.playlist
      && r.index == (p.index + 1) % |Active(p)|
      && CurrentSong(r).song == Active(p)[(p.index + 1) % |Active(p)|]
  {
    NavigateValid(p, true, draw, position);
  }

  lemma OnStateChangedValid(p: State, event: string, draw: nat, position: int)
    requires Valid(p) && DrawFits(p, draw)
    ensures Valid(OnStateChanged(p, event, draw, position))
  {
    NavigateValid(p, true, draw, position);
    assert Active(p.(audio := p.audio + [Seek(0), Play])) == Active(p);
  }

  /** `toggle_shuffle`: flips the mode and persists it. */
  function ToggleShuffle(p: State): (r: State)
    ensures r.shuffle == !p.shuffle && r.settings.shuffle == r.shuffle
    ensures r.settings == p.settings.(shuffle := r.shuffle)
    ensures r.(shuffle := p.shuffle, settings := p.settings) == p
  {
    p.(shuffle := !p.shuffle, settings := p.settings.(shuffle := !p.shuffle))
  }

  /** `toggle_repeat`. */
  function ToggleRepeat(p: State): (r: State)
    ensures r.repeat == !p.repeat && r.settings.repeat == r.repeat
    ensures r.settings == p.settings.(repeat := r.repeat)
    ensures r.(repeat := p.repeat, settings := p.settings) == p
  {
    p.(repeat := !p.repeat, settings := p.settings.(repeat := !p.repeat))
  }

  /** `toggle_single_repeat`. */
  function ToggleSingleRepeat(p: State): (r: State)
    ensures r.singleRepeat == !p.singleRepeat && r.settings.singleRepeat == r.singleRepeat
    ensures r.settings == p.settings.(singleRepeat := r.singleRepeat)
    ensures r.(singleRepeat := p.singleRepeat, settings := p.settings) == p
  {
    p.(singleRepeat := !p.singleRepeat, settings := p.settings.(singleRepeat := !p.singleRepeat))
  }

  /** The toggles keep the invariant and the flags in step with the settings,
      and undo themselves. */
  lemma TogglesKeepInvariants(p: State)
    requires Valid(p) && Synced(p)
    ensures Valid(ToggleShuffle(p)) && Synced(ToggleShuffle(p))
    ensures Valid(ToggleRepeat(p)) && Synced(ToggleRepeat(p))
    ensures Valid(ToggleSingleRepeat(p)) && Synced(ToggleSingleRepeat(p))
    ensures ToggleShuffle(ToggleShuffle(p)) == p
    ensures ToggleRepeat(ToggleRepeat(p)) == p
    ensures ToggleSingleRepeat(ToggleSingleRepeat(p)) == p
  {
    assert Active(ToggleShuffle(p)) == Active(p);
    assert Active(ToggleRepeat(p)) == Active(p);
    assert Active(ToggleSingleRepeat(p)) == Active(p);
  }

  /** `toggle_mute`: silences the audio, or gives it back the configured volume. */
  function ToggleMute(p: State): (r: State)
    ensures r.mute == !p.mute
    ensures |r.audio| == |p.audio| + 1 && r.audio[..|p.audio|] == p.audio
    ensures r.audio[|p.audio|] == SetVolume(if r.mute then 0.0 else p.settings.volume)
    ensures r.(mute := p.mute, audio := p.audio) == p
  {
    var m := !p.mute;
    p.(mute := m, audio := p.audio + [SetVolume(if m then 0.0 else p.settings.volume)])
  }

  /** Muting and unmuting restores the configured volume and the mute flag. */
  lemma MuteTwice(p: State)
    requires !p.mute
    ensures var r := ToggleMute(ToggleMute(p));
      r.mute == p.mute && r.audio == p.audio + [SetVolume(0.0), SetVolume(p.settings.volume)]
  {
  }

  // ---------------------------------------------------------------------------
  // Start-up

  /** The constructor: with no songs the aggregate list is active and nothing
      is loaded. Otherwise the configured playlist (the aggregate list when
      it is unknown, which is then persisted), seeded resume records, the
      restored index, and the audio control loaded with the current song at
      the configured volume, seeking to the saved position when positive. */
  function Init(c: Catalog, settings: MusicSettings): (r: State)
    requires WellFormed(c)
    ensures Valid(r) && Synced(r) && !r.playing && !r.mute
    ensures |c.allSongs| == 0 ==> r.playlist == AllSongsName && r.audio == []
    ensures |c.allSongs| > 0 ==>
      && r.playlist == (if Known(c, settings.currentPlaylist) then settings.currentPlaylist else AllSongsName)
      && r.settings.currentPlaylist == r.playlist
      && r.settings.states.Keys == settings.states.Keys + {AllSongsName} + (set n | n in Names(c.playlists))
    ensures |c.allSongs| > 0 ==>
      r.audio == [SetSource(CurrentSong(r).song), SetVolume(settings.volume)]
                 + (if settings.lastPosition > 0 then [Seek(settings.lastPosition)] else [])
  {
    if |c.allSongs| == 0 then
      var r := State(c, AllSongsName, 0, settings.shuffle, settings.repeat, settings.singleRepeat, false, false, settings, []);
      KnownSongs(c, AllSongsName);
      r
    else
      var name := if settings.currentPlaylist in Names(c.playlists) || settings.currentPlaylist == AllSongsName
        then settings.currentPlaylist else AllSongsName;
      var states := Seed(settings.states, Names(c.playlists));
      KnownSongs(c, name);
      var songs := Songs(c, name).GetOr([]);
      var restored := Restore(states, name, songs);
      var s := settings.(currentPlaylist := name, states := restored.records);
      var p := State(c, name, restored.index, settings.shuffle, settings.repeat, settings.singleRepeat, false, false, s, []);
      assert Active(p) == songs;
      var audio := [SetSource(CurrentSong(p).song), SetVolume(settings.volume)]
                   + (if settings.lastPosition > 0 then [Seek(settings.lastPosition)] else []);
      CurrentSongIgnoresAudio(p, audio);
      p.(audio := audio)
  }

  /** Start-up resumes: when the record of the chosen playlist names one of its
      songs, that song is current and loaded into the audio control. */
  lemma InitResumes(c: Catalog, settings: MusicSettings)
    requires WellFormed(c) && |c.allSongs| > 0 && Known(c, settings.currentPlaylist)
    requires var name := settings.currentPlaylist;
      name in settings.states && settings.states[name].lastSongPath != ""
      && settings.states[name].lastSongPath in Songs(c, name).GetOr([])
    ensures var r := Init(c, settings);
      && CurrentSong(r).song == settings.states[settings.currentPlaylist].lastSongPath
      && r.audio[0] == SetSource(settings.states[settings.currentPlaylist].lastSongPath)
      && r.playlist == settings.currentPlaylist
      && r.settings.states[r.playlist] == settings.states[settings.currentPlaylist]
  {
    var r := Init(c, settings);
    var name := settings.currentPlaylist;
    CurrentSongValid(r);
    var states := Seed(settings.states, Names(c.playlists));
    assert states[name] == settings.states[name];
    assert Restore(states, name, Songs(c, name).GetOr([])).records == states;
  }

  /** Start-up seeks to the global `last_position`, which the most recent save
      wrote for whichever playlist was active then, not to the position in
      the restored playlist's own record. Playing A/x.mp3 in A to some
      position and switching to B (whose record names B/y.mp3 at 0) leaves a
      start-up that loads B/y.mp3 and seeks it to that position; the intended
      start-up does not seek. */
  lemma InitSeeksForeignPosition(at: int)
    requires at > 0
    ensures var p := SwitchExample(at);
      && ShowPlaylist(SwitchBefore(), "B", at) == p
      && WellFormed(p.catalog)
      && Init(p.catalog, p.settings).audio == [SetSource("B/y.mp3"), SetVolume(1.0), Seek(at)]
      && InitIntended(p.catalog, p.settings).audio == [SetSource("B/y.mp3"), SetVolume(1.0)]
  {
    SwitchExampleIsSwitch(at);
    SwitchCatalogFacts();
    var p := SwitchExample(at);
    ForeignSeek(p.catalog, p.settings, "B/y.mp3");
  }

  /** A restored record at position 0 with a positive global `last_position`:
      start-up as written seeks anyway, the intended one does not. */
  lemma ForeignSeek(c: Catalog, settings: MusicSettings, song: string)
    requires WellFormed(c) && |c.allSongs| > 0 && Known(c, settings.currentPlaylist)
    requires settings.currentPlaylist in settings.states && settings.states[settings.currentPlaylist] == Record(song, 0)
    requires song != "" && song in Songs(c, settings.currentPlaylist).GetOr([]) && settings.lastPosition > 0
    ensures Init(c, settings).audio == [SetSource(song), SetVolume(settings.volume), Seek(settings.lastPosition)]
    ensures InitIntended(c, settings).audio == [SetSource(song), SetVolume(settings.volume)]
  {
    InitSeekSources(c, settings);
  }

  /** When the configured playlist's record names one of its songs, start-up
      as written seeks to the global `last_position`, while the intended
      start-up seeks to the record's own position. */
  lemma InitSeekSources(c: Catalog, settings: MusicSettings)
    requires WellFormed(c) && |c.allSongs| > 0 && Known(c, settings.currentPlaylist)
    requires var name := settings.currentPlaylist;
      name in settings.states && settings.states[name].lastSongPath != ""
      && settings.states[name].lastSongPath in Songs(c, name).GetOr([])
    ensures var rec := settings.states[settings.currentPlaylist];
      && Init(c, settings).audio == [SetSource(rec.lastSongPath), SetVolume(settings.volume)]
           + (if settings.lastPosition > 0 then [Seek(settings.lastPosition)] else [])
      && InitIntended(c, settings).audio == [SetSource(rec.lastSongPath), SetVolume(settings.volume)]
           + (if rec.lastPosition > 0 then [Seek(rec.lastPosition)] else [])
  {
    var rec := settings.states[settings.currentPlaylist];
    InitResumes(c, settings);
    var q := InitIntended(c, settings);
    assert ActiveRecord(q) == rec;
    if rec.lastPosition <= 0 {
      assert |q.audio| == 2;
    }
  }

  /** The library of the example: playlists A = [A/x.mp3] and B = [B/y.mp3]. */
  function SwitchCatalog(): Catalog {
    Catalog([Playlist("A", ["A/x.mp3"]), Playlist("B", ["B/y.mp3"])], ["A/x.mp3", "B/y.mp3"])
  }

  /** Playing A/x.mp3 in A; B's record names B/y.mp3 at 0. */
  function SwitchBefore(): State {
    var states := map["A" := Record("A/x.mp3", 0), "B" := Record("B/y.mp3", 0)];
    var s := MusicSettings(false, false, false, "A", "A/x.mp3", 0, 1.0, states);
    State(SwitchCatalog(), "A", 0, false, false, false, true, false, s, [])
  }

  /** The state after switching to B at position `at`. */
  function SwitchExample(at: int): State {
    var states := map["A" := Record("A/x.mp3", at), "B" := Record("B/y.mp3", 0)];
    var s := MusicSettings(false, false, false, "B", "A/x.mp3", at, 1.0, states);
    State(SwitchCatalog(), "B", 0, false, false, false, true, false, s, [])
  }

  lemma SwitchCatalogFacts()
    ensures var c := SwitchCatalog();
      && WellFormed(c)
      && Lookup(c.playlists, "A") == Some(["A/x.mp3"])
      && Lookup(c.playlists, "B") == Some(["B/y.mp3"])
  {
    var c := SwitchCatalog();
    assert Lookup(c.playlists, "A") == Some(["A/x.mp3"]);
    assert Lookup(c.playlists, "B") == Some(["B/y.mp3"]);
    assert Concat(c.playlists) == c.allSongs;
  }

  lemma SwitchExampleIsSwitch(at: int)
    ensures ShowPlaylist(SwitchBefore(), "B", at) == SwitchExample(at)
  {
    SwitchExampleSaves(at);
    SwitchExampleMoves(at);
  }

  /** The state after the save, still on A. */
  function SwitchSaved(at: int): State {
    var p := SwitchExample(at);
    p.(playlist := "A", settings := p.settings.(currentPlaylist := "A"))
  }

  lemma SwitchExampleSaves(at: int)
    ensures SavePlaylistState(SwitchBefore(), at) == SwitchSaved(at)
  {
    var p := SwitchBefore();
    SwitchCatalogFacts();
    assert Active(p) == ["A/x.mp3"];
    assert CurrentSong(p) == Current("A/x.mp3", 0);
    var saved := Save(p.settings.states, "A", "A/x.mp3", at);
    assert saved.Keys == {"A", "B"};
    assert saved == SwitchSaved(at).settings.states;
  }

  lemma SwitchExampleMoves(at: int)
    ensures SwitchTo(SwitchSaved(at), "B") == SwitchExample(at)
  {
    var p1 := SwitchSaved(at);
    SwitchCatalogFacts();
    assert Songs(p1.catalog, "B").GetOr([]) == ["B/y.mp3"];
    assert SwitchTo(p1, "B").index == 0;
  }

  /** The commands that resume the loaded song from its own record: a seek to
      the record's position when it is positive and the record names that song. */
  function ResumeSeek(rec: Record, song: string): (r: seq<Command>)
    ensures |r| <= 1
    ensures forall k :: 0 <= k < |r| ==> r[k] == Seek(rec.lastPosition) && rec == Record(song, rec.lastPosition) && rec.lastPosition > 0
    ensures rec.lastSongPath == song && rec.lastPosition > 0 ==> r == [Seek(rec.lastPosition)]
  {
    if rec.lastSongPath == song && rec.lastPosition > 0 then [Seek(rec.lastPosition)] else []
  }

  /** Reloads the audio control for the state's current song at `volume`,
      resuming from the active playlist's own record. */
  function Resumed(p: State, volume: real): (r: State)
    ensures r.(audio := []) == p.(audio := []) && CurrentSong(r) == CurrentSong(p) && ActiveRecord(r) == ActiveRecord(p)
    ensures |r.audio| == 2 || |r.audio| == 3
    ensures r.audio[..2] == [SetSource(CurrentSong(p).song), SetVolume(volume)]
    ensures forall k :: 0 <= k < |r.audio| && r.audio[k].Seek? ==>
      r.audio[k] == Seek(ActiveRecord(p).lastPosition) && ActiveRecord(p).lastPosition > 0
      && ActiveRecord(p) == Record(CurrentSong(p).song, ActiveRecord(p).lastPosition)
    ensures ActiveRecord(p).lastSongPath == CurrentSong(p).song && ActiveRecord(p).lastPosition > 0 ==>
      r.audio == r.audio[..2] + [Seek(ActiveRecord(p).lastPosition)]
  {
    var song := CurrentSong(p).song;
    var head := [SetSource(song), SetVolume(volume)];
    var tail := ResumeSeek(ActiveRecord(p), song);
    var r := p.(audio := head + tail);
    CurrentSongIgnoresAudio(p, r.audio);
    assert r.audio[..2] == head;
    SeekOnlyInTail(head, tail);
    r
  }

  /** The resume record of the active playlist, or a blank one. */
  function ActiveRecord(p: State): Record {
    if p.playlist in p.settings.states then p.settings.states[p.playlist] else Record("", 0)
  }

  /** The current song does not depend on what was sent to the audio control. */
  lemma CurrentSongIgnoresAudio(p: State, audio: seq<Command>)
    ensures CurrentSong(p.(audio := audio)) == CurrentSong(p)
  {
    var q := p.(audio := audio);
    assert q.catalog == p.catalog && q.playlist == p.playlist && q.index == p.index;
  }

  lemma SeekOnlyInTail(head: seq<Command>, tail: seq<Command>)
    requires forall k :: 0 <= k < |head| ==> !head[k].Seek?
    ensures forall k :: 0 <= k < |head + tail| && (head + tail)[k].Seek? ==> k >= |head| && (head + tail)[k] == tail[k - |head|]
  {
  }

  /** Start-up as evidently intended: the seek goes to the position in the
      restored playlist's own record, and only when that record names the
      song just loaded. Everything else is as in `Init`. */
  function InitIntended(c: Catalog, settings: MusicSettings): (r: State)
    requires WellFormed(c)
    ensures r.(audio := []) == Init(c, settings).(audio := [])
    ensures CurrentSong(r) == CurrentSong(Init(c, settings)) && ActiveRecord(r) == ActiveRecord(Init(c, settings))
    ensures |c.allSongs| == 0 ==> r.audio == []
    ensures |c.allSongs| > 0 ==>
      && |r.audio| >= 2 && r.audio[..2] == [SetSource(CurrentSong(r).song), SetVolume(settings.volume)]
      && (|r.audio| == 2 || |r.audio| == 3)
    ensures forall k :: 0 <= k < |r.audio| && r.audio[k].Seek? ==>
      r.audio[k].ms > 0 && ActiveRecord(r) == Record(CurrentSong(r).song, r.audio[k].ms)
    ensures |c.allSongs| > 0 && ActiveRecord(r).lastSongPath == CurrentSong(r).song && ActiveRecord(r).lastPosition > 0 ==>
      r.audio == r.audio[..2] + [Seek(ActiveRecord(r).lastPosition)]
  {
    var p := Init(c, settings);
    if |c.allSongs| == 0 then p else Resumed(p, settings.volume)
  }

  /** With the intended start-up, saving and restarting resumes the song that
      was playing at the saved position. */
  lemma SaveThenInitIntended(p: State, position: int)
    requires Valid(p) && |Active(p)| > 0 && p.settings.currentPlaylist == p.playlist
    requires CurrentSong(p).song != "" && position > 0
    ensures var r := InitIntended(p.catalog, SavePlaylistState(p, position).settings);
      && r.playlist == p.playlist
      && CurrentSong(r).song == CurrentSong(p).song
      && r.audio == [SetSource(CurrentSong(p).song), SetVolume(p.settings.volume), Seek(position)]
  {
    var s := SavePlaylistState(p, position).settings;
    var c, song := p.catalog, CurrentSong(p).song;
    CurrentSongValid(p);
    KnownSongs(c, p.playlist);
    assert s.currentPlaylist == p.playlist && s.volume == p.settings.volume;
    assert s.states[p.playlist] == Record(song, position);
    InitResumes(c, s);
    var r := InitIntended(c, s);
    assert r.playlist == p.playlist && r.settings.states[r.playlist] == Record(song, position);
    assert ActiveRecord(r) == Record(song, position);
  }

  // ---------------------------------------------------------------------------
  // Text shown by the page

  /** `f"{n:02}"`. */
  function Pad2(n: nat): (s: string)
    ensures IsDigits(s) && DigitsValue(s) == n
    ensures n < 100 ==> |s| == 2
    ensures |s| >= 2 && (n >= 10 ==> s[0] != '0')
  {
    if n < 10 then
      var d := [DigitChar(n)];
      assert DigitsValue(d) == n by { assert d[..0] == []; }
      DigitsValueLeadingZero(d);
      "0" + d
    else if n < 100 then
      var s := [DigitChar(n / 10), DigitChar(n % 10)];
      assert s[..1] == [DigitChar(n / 10)] && s[..1][..0] == [];
      assert DigitsValue(s[..1]) == n / 10;
      assert DigitsValue(s) == 10 * (n / 10) + n % 10;
      s
    else NatToString(n)
  }

  /** `format_time(milliseconds)`: whole seconds as `mm:ss`. */
  function FormatTime(ms: nat): (s: string)
    ensures ms < 6000000 ==> |s| == 5 && s[2] == ':'
    ensures |s| >= 5 && IsDigits(s[..|s| - 3]) && DigitsValue(s[..|s| - 3]) == ms / 60000
    ensures s[|s| - 3] == ':' && IsDigits(s[|s| - 2..]) && DigitsValue(s[|s| - 2..]) == ms / 1000 % 60
    ensures ms >= 600000 ==> s[0] != '0'
    ensures |s| > 5 ==> s[0] != '0'
  {
    var seconds := ms / 1000;
    assert seconds / 60 == ms / 60000;
    var a := Pad2(seconds / 60);
    var b := Pad2(seconds % 60);
    var s := a + ":" + b;
    assert s[..|s| - 3] == a && s[|s| - 2..] == b;
    s
  }

  /** Reads `mm:ss` back as a number of seconds. */
  function ParseClock(s: string): Option<nat> {
    if ':' in s then
      var m := BeforeFirst(s, ':');
      var sec := AfterFirst(s, ':');
      if IsDigits(m) && IsDigits(sec) then Some(DigitsValue(m) * 60 + DigitsValue(sec)) else None
    else None
  }

  /** The display loses only the milliseconds: reading it back gives the whole
      seconds, and the seconds field is always two digits. */
  lemma FormatTimeRoundTrip(ms: nat)
    ensures ParseClock(FormatTime(ms)) == Some(ms / 1000)
    ensures ':' in FormatTime(ms) && |AfterFirst(FormatTime(ms), ':')| == 2
  {
    var seconds := ms / 1000;
    var a := Pad2(seconds / 60);
    var b := Pad2(seconds % 60);
    assert DigitsValue(a) * 60 + DigitsValue(b) == seconds;
    assert FormatTime(ms) == a + ":" + b;
    ClockRoundTrip(a, b, seconds);
  }

  /** Two digit groups joined by a colon read back as minutes and seconds. */
  lemma ClockRoundTrip(a: string, b: string, v: nat)
    requires IsDigits(a) && IsDigits(b) && DigitsValue(a) * 60 + DigitsValue(b) == v
    ensures ParseClock(a + ":" + b) == Some(v)
    ensures ':' in a + ":" + b && AfterFirst(a + ":" + b, ':') == b
  {
    ClockSplit(a, b);
    ParseClockParts(a + ":" + b, a, b);
  }

  lemma ParseClockParts(s: string, m: string, sec: string)
    requires ':' in s && BeforeFirst(s, ':') == m && AfterFirst(s, ':') == sec
    requires IsDigits(m) && IsDigits(sec)
    ensures ParseClock(s) == Some(DigitsValue(m) * 60 + DigitsValue(sec))
  {
  }

  /** `mm:ss` splits at its colon back into the two digit groups. */
  lemma ClockSplit(a: string, b: string)
    requires IsDigits(a)
    ensures ':' in a + ":" + b
    ensures BeforeFirst(a + ":" + b, ':') == a && AfterFirst(a + ":" + b, ':') == b
  {
    var s := a + ":" + b;
    assert ':' !in a;
    assert s[|a|] == ':';
    assert forall j :: 0 <= j < |a| ==> s[j] == a[j];
    assert Find(s, ':') == |a|;
    assert s[..|a|] == a && s[|a| + 1..] == b;
  }

  // ---------------------------------------------------------------------------
  // List keys

  /** `/`, `\` and `.` become `_`. */
  function KeyChar(c: char): char {
    if c == '/' || c == '\\' || c == '.' then '_' else c
  }

  /** `_get_song_key` on the song's path relative to the music directory. */
  function SongKey(rel: string): (k: string)
    ensures |k| == |rel| + 5 && k[..5] == "song_"
    ensures forall i :: 0 <= i < |rel| ==> k[5 + i] == KeyChar(rel[i])
    ensures '/' !in k && '\\' !in k && '.' !in k
  {
    "song_" + seq(|rel|, i requires 0 <= i < |rel| => KeyChar(rel[i]))
  }

  /** The key is not unique, although its comment promises so: the songs
      `a.b.mp3` and `a_b.mp3` of one directory get the same key. */
  lemma SongKeyCollision()
    ensures "a.b.mp3" != "a_b.mp3" && SongKey("a.b.mp3") == SongKey("a_b.mp3")
  {
    var x, y := "a.b.mp3", "a_b.mp3";
    assert x[1] != y[1];
    assert |x| == |y|;
    forall i | 0 <= i < |x| ensures KeyChar(x[i]) == KeyChar(y[i]) {
    }
    assert SongKey(x)[5..] == SongKey(y)[5..];
  }

  /** An escaping that keeps keys free of `/`, `\` and `.` and unique: `_`
      itself is escaped too. */
  function EscapeChar(c: char): (s: string)
    ensures |s| > 0
  {
    if c == '_' then "_u"
    else if c == '/' then "_s"
    else if c == '\\' then "_b"
    else if c == '.' then "_d"
    else [c]
  }

  function Escape(s: string): (r: string)
    ensures '/' !in r && '\\' !in r && '.' !in r
  {
    if |s| == 0 then "" else EscapeChar(s[0]) + Escape(s[1..])
  }

  function Unescape(s: string): string
    decreases |s|
  {
    if |s| == 0 then ""
    else if s[0] == '_' && |s| >= 2 then
      [if s[1] == 'u' then '_' else if s[1] == 's' then '/' else if s[1] == 'b' then '\\' else '.'] + Unescape(s[2..])
    else [s[0]] + Unescape(s[1..])
  }

  lemma {:induction false} UnescapeEscape(s: string)
    ensures Unescape(Escape(s)) == s
  {
    if |s| > 0 {
      UnescapeEscape(s[1..]);
      var e := Escape(s);
      var rest := Escape(s[1..]);
      assert e == EscapeChar(s[0]) + rest;
      if |EscapeChar(s[0])| == 2 {
        assert e[2..] == rest;
      } else {
        assert e[1..] == rest;
      }
    }
  }

  /** The corrected key. */
  function SongKeyEscaped(rel: string): (k: string)
    ensures '/' !in k && '\\' !in k && '.' !in k
  {
    "song_" + Escape(rel)
  }

  /** Distinct songs get distinct corrected keys. */
  lemma SongKeyEscapedInjective(a: string, b: string)
    ensures SongKeyEscaped(a) == SongKeyEscaped(b) ==> a == b
  {
    if SongKeyEscaped(a) == SongKeyEscaped(b) {
      assert SongKeyEscaped(a)[5..] == Escape(a);
      assert SongKeyEscaped(b)[5..] == Escape(b);
      UnescapeEscape(a);
      UnescapeEscape(b);
    }
  }
}

=== FILE: resume.dfy ===
/** Resume records (`_init_playlist_states`, `_restore_last_playback_state`
    and `_save_playlist_state` in app/pages/player.py): for every playlist
    the song last played in it and the position reached, kept in the
    `Music.playlist_states` setting. */
module Resume {
  import opened Common
  import Library
  import Settings

  /** `{"last_song_path": ..., "last_position": ...}`. */
  datatype Record = Record(lastSongPath: string, lastPosition: int)

  /** The record a playlist starts with. */
  const Blank: Record := Record("", 0)

  /** `playlist_states`: playlist name to record. */
  type Records = map<string, Record>

  // ---------------------------------------------------------------------------
  // Seeding

  /** The loop of `_init_playlist_states` over the given names. */
  function SeedAll(records: Records, names: seq<string>): (r: Records)
    ensures r.Keys == records.Keys + (set k | k in names)
    ensures forall k :: k in records ==> r[k] == records[k]
    ensures forall k :: k in r && k !in records ==> r[k] == Blank
    decreases |names|
  {
    if |names| == 0 then records
    else
      var first := if names[0] in records then records else records[names[0] := Blank];
      var r := SeedAll(first, names[1..]);
      assert forall k :: k in names <==> k == names[0] || k in names[1..];
      r
  }

  /** `_init_playlist_states`: every playlist, and `所有歌曲`, gets a blank
      record unless it already has one; existing records are kept as they are. */
  function Seed(records: Records, playlists: seq<string>): (r: Records)
    ensures r.Keys == records.Keys + {Library.AllSongsName} + (set k | k in playlists)
    ensures forall k :: k in records ==> r[k] == records[k]
    ensures forall k :: k in r && k !in records ==> r[k] == Blank
  {
    var r := SeedAll(records, [Library.AllSongsName] + playlists);
    assert forall k :: k in [Library.AllSongsName] + playlists <==> k == Library.AllSongsName || k in playlists;
    r
  }

  /** Seeding twice is seeding once. */
  lemma SeedIdempotent(records: Records, playlists: seq<string>)
    ensures Seed(Seed(records, playlists), playlists) == Seed(records, playlists)
  {
  }

  // ---------------------------------------------------------------------------
  // Saving and restoring

  /** The record update of `_save_playlist_state`. */
  function Save(records: Records, playlist: string, song: string, position: int): (r: Records)
    ensures playlist in r && r[playlist] == Record(song, position)
    ensures forall k :: k != playlist ==> (k in r <==> k in records)
    ensures forall k :: k != playlist && k in records ==> r[k] == records[k]
  {
    records[playlist := Record(song, position)]
  }

  /** The index restored, and the records afterwards. */
  datatype Restored = Restored(index: nat, records: Records)

  /** `_restore_last_playback_state`: the position of the saved song in the
      playlist's songs; when it is no longer there, the first song, and the
      record is repaired to point at it (at position 0). A missing record or an
      empty saved path restores index 0 and changes nothing. */
  function Restore(records: Records, playlist: string, songs: seq<string>): (r: Restored)
    ensures |songs| > 0 ==> r.index < |songs|
    ensures r.records.Keys == records.Keys
    ensures forall k :: k != playlist && k in records ==> r.records[k] == records[k]
    ensures r.index > 0 ==> playlist in records && r.index < |songs| && songs[r.index] == records[playlist].lastSongPath
    ensures playlist in records && records[playlist].lastSongPath != "" && records[playlist].lastSongPath in songs ==>
      songs[r.index] == records[playlist].lastSongPath && r.records == records
    ensures playlist in records && records[playlist].lastSongPath != "" && records[playlist].lastSongPath !in songs ==>
      r.index == 0 && playlist in r.records && r.records[playlist] == Record(if |songs| > 0 then songs[0] else "", 0)
    ensures playlist !in records || records[playlist].lastSongPath == "" ==> r == Restored(0, records)
  {
    if playlist !in records || records[playlist].lastSongPath == "" then Restored(0, records)
    else
      var last := records[playlist].lastSongPath;
      if last in songs then Restored(Library.IndexOf(songs, last), records)
      else Restored(0, records[playlist := Record(if |songs| > 0 then songs[0] else "", 0)])
  }

  /** What is saved is restored: after saving a song of the playlist, restoring
      finds that song again. */
  lemma SaveThenRestore(records: Records, playlist: string, songs: seq<string>, song: string, position: int)
    requires song in songs && song != ""
    ensures var r := Restore(Save(records, playlist, song, position), playlist, songs);
      songs[r.index] == song && r.records == Save(records, playlist, song, position)
  {
  }

  /** Restoring repairs a stale record once for all: restoring again gives the
      same index and leaves the records alone. */
  lemma RestoreIdempotent(records: Records, playlist: string, songs: seq<string>)
    ensures var r := Restore(records, playlist, songs);
      Restore(r.records, playlist, songs) == r
  {
    var r := Restore(records, playlist, songs);
    if playlist in records && records[playlist].lastSongPath != "" && records[playlist].lastSongPath !in songs && |songs| > 0 {
      assert r.records[playlist].lastSongPath == songs[0];
      assert Library.IndexOf(songs, songs[0]) == 0;
    }
  }

  // ---------------------------------------------------------------------------
  // Persistence through the settings store

  /** A record as the JSON object the settings file holds. */
  function EncodeRecord(r: Record): Settings.Value {
    Settings.Object(map["last_song_path" := Settings.Str(r.lastSongPath), "last_position" := Settings.Int(r.lastPosition)])
  }

  /** `state.get("last_song_path", "")` and `state.get("last_position", 0)`
      on a stored object; anything else reads as a blank record. */
  function DecodeRecord(v: Settings.Value): Record {
    match v
    case Object(m) =>
      Record(
        if "last_song_path" in m && m["last_song_path"].Str? then m["last_song_path"].s else "",
        if "last_position" in m && m["last_position"].Int? then m["last_position"].i else 0)
    case _ => Blank
  }

  function EncodeRecords(records: Records): Settings.Value {
    Settings.Object(map k | k in records :: EncodeRecord(records[k]))
  }

  function DecodeRecords(v: Settings.Value): Records {
    match v
    case Object(m) => map k | k in m :: DecodeRecord(m[k])
    case _ => map[]
  }

  lemma RecordRoundTrip(r: Record)
    ensures DecodeRecord(EncodeRecord(r)) == r
  {
  }

  /** The records survive the trip through `config.set("Music",
      "playlist_states", ...)` and back, whatever else the store holds. */
  lemma RecordsPersist(store: Settings.Store, records: Records, default: Settings.Value)
    requires Settings.Valid(store)
    ensures DecodeRecords(Settings.Get(Settings.Set(store, "Music", "playlist_states", EncodeRecords(records)),
                                       "Music", "playlist_states", default)) == records
  {
    var decoded := DecodeRecords(EncodeRecords(records));
    forall k | k in records ensures k in decoded && decoded[k] == records[k] {
      RecordRoundTrip(records[k]);
    }
  }
}

=== FILE: settings.dfy ===
/** The settings store `AppConfig` (app/config/config.py): a map of named
    sections, each a map from keys to JSON values, kept in insertion order
    as Python dictionaries are. Reading and writing the JSON file is not
    modelled; every operation here is the in-memory effect. */
module Settings {
  import opened Common

  /** A JSON value as `json.load` produces it. */
  datatype Value =
    | Null
    | Bool(b: bool)
    | Int(i: int)
    | Real(r: real)
    | Str(s: string)
    | List(items: seq<Value>)
    | Object(fields: map<string, Value>)

  datatype Section = Section(name: string, entries: map<string, Value>)

  /** `AppConfig.data`: the sections in the order they were first added. */
  datatype Store = Store(sections: seq<Section>)

  /** Section names are dictionary keys, hence distinct. */
  predicate Valid(store: Store) {
    forall i, j :: 0 <= i < j < |store.sections| ==> store.sections[i].name != store.sections[j].name
  }

  /** Position of the section called `name`, or `|sections|` when there is none. */
  function Position(sections: seq<Section>, name: string): (i: nat)
    ensures i <= |sections|
    ensures i < |sections| ==> sections[i].name == name
    ensures forall j :: 0 <= j < i ==> sections[j].name != name
  {
    if |sections| == 0 then 0
    else if sections[0].name == name then 0
    else 1 + Position(sections[1..], name)
  }

  predicate HasSection(store: Store, name: string) {
    Position(store.sections, name) < |store.sections|
  }

  /** `config_sections()`: the section names in insertion order. */
  function SectionNames(store: Store): (names: seq<string>)
    ensures |names| == |store.sections|
    ensures forall i :: 0 <= i < |names| ==> names[i] == store.sections[i].name
  {
    seq(|store.sections|, i requires 0 <= i < |store.sections| => store.sections[i].name)
  }

  /** `get(section, key, default)`: the stored value, or `default` when the
      section or the key is absent. */
  function Get(store: Store, section: string, key: string, default: Value): (v: Value)
    ensures !HasSection(store, section) ==> v == default
    ensures HasSection(store, section) ==>
      var entries := store.sections[Position(store.sections, section)].entries;
      v == (if key in entries then entries[key] else default)
  {
    var i := Position(store.sections, section);
    if i < |store.sections| && key in store.sections[i].entries then store.sections[i].entries[key]
    else default
  }

  /** `set(section, key, value)`: writes one entry, creating the section at the
      end when it is missing. */
  function Set(store: Store, section: string, key: string, value: Value): (r: Store)
    requires Valid(store)
    ensures Valid(r)
    ensures forall d :: Get(r, section, key, d) == value
    ensures HasSection(r, section) && key in r.sections[Position(r.sections, section)].entries
    ensures forall s, k, d :: (s != section || k != key) ==> Get(r, s, k, d) == Get(store, s, k, d)
    ensures HasSection(store, section) ==> SectionNames(r) == SectionNames(store)
    ensures !HasSection(store, section) ==> SectionNames(r) == SectionNames(store) + [section]
  {
    var i := Position(store.sections, section);
    if i < |store.sections| then
      SetInPlaceFacts(store, section, key, value, i);
      Store(store.sections[i := Section(section, store.sections[i].entries[key := value])])
    else
      SetAppendFacts(store, section, key, value);
      Store(store.sections + [Section(section, map[key := value])])
  }

  /** `set` on an existing section: the entry is replaced in place. */
  lemma SetInPlaceFacts(store: Store, section: string, key: string, value: Value, i: nat)
    requires Valid(store)
    requires i == Position(store.sections, section) < |store.sections|
    ensures var r := Store(store.sections[i := Section(section, store.sections[i].entries[key := value])]);
      && Valid(r)
      && SectionNames(r) == SectionNames(store)
      && (forall s :: Position(r.sections, s) == Position(store.sections, s))
      && HasSection(r, section) && key in r.sections[Position(r.sections, section)].entries
      && (forall d :: Get(r, section, key, d) == value)
      && (forall s, k, d :: (s != section || k != key) ==> Get(r, s, k, d) == Get(store, s, k, d))
  {
    var r := Store(store.sections[i := Section(section, store.sections[i].entries[key := value])]);
    forall s ensures Position(r.sections, s) == Position(store.sections, s) {
      PositionSameNames(r.sections, store.sections, s);
    }
    assert SectionNames(r) == SectionNames(store);
  }

  /** `set` on a missing section: a new section is appended. */
  lemma SetAppendFacts(store: Store, section: string, key: string, value: Value)
    requires Valid(store)
    requires !HasSection(store, section)
    ensures var r := Store(store.sections + [Section(section, map[key := value])]);
      && Valid(r)
      && SectionNames(r) == SectionNames(store) + [section]
      && HasSection(r, section) && key in r.sections[Position(r.sections, section)].entries
      && (forall d :: Get(r, section, key, d) == value)
      && (forall s, k, d :: (s != section || k != key) ==> Get(r, s, k, d) == Get(store, s, k, d))
  {
    var sec := Section(section, map[key := value]);
    var r := Store(store.sections + [sec]);
    PositionAppend(store.sections, sec, section);
    forall s, k, d | s != section || k != key ensures Get(r, s, k, d) == Get(store, s, k, d) {
      PositionAppend(store.sections, sec, s);
    }
    assert SectionNames(r) == SectionNames(store) + [section];
  }

  /** `add_section(section)`: appends an empty section unless one of that name exists. */
  function AddSection(store: Store, section: string): (r: Store)
    requires Valid(store)
    ensures Valid(r)
    ensures HasSection(store, section) ==> r == store
    ensures !HasSection(store, section) ==>
      && SectionNames(r) == SectionNames(store) + [section]
      && (forall k, d :: Get(r, section, k, d) == d)
    ensures forall s, k, d :: s != section ==> Get(r, s, k, d) == Get(store, s, k, d)
  {
    if HasSection(store, section) then store
    else
      var r := Store(store.sections + [Section(section, map[])]);
      assert forall s :: s != section ==> (Position(r.sections, s) == Position(store.sections, s)
          || (Position(store.sections, s) == |store.sections| && Position(r.sections, s) == |r.sections|))
      by {
        forall s | s != section ensures Position(r.sections, s) == Position(store.sections, s)
          || (Position(store.sections, s) == |store.sections| && Position(r.sections, s) == |r.sections|)
        {
          PositionAppend(store.sections, Section(section, map[]), s);
        }
      }
      PositionAppend(store.sections, Section(section, map[]), section);
      r
  }

  /** `remove_section(section)`: deletes that section, if present, and nothing else. */
  function RemoveSection(store: Store, section: string): (r: Store)
    requires Valid(store)
    ensures Valid(r)
    ensures !HasSection(r, section)
    ensures !HasSection(store, section) ==> r == store
    ensures forall s, k, d :: s != section ==> Get(r, s, k, d) == Get(store, s, k, d)
    ensures forall s :: s in SectionNames(r) <==> s in SectionNames(store) && s != section
    ensures HasSection(store, section) ==>
      var i := Position(store.sections, section);
      && SectionNames(store)[i] == section
      && SectionNames(r) == SectionNames(store)[..i] + SectionNames(store)[i + 1..]
  {
    var i := Position(store.sections, section);
    if i == |store.sections| then store
    else
      RemoveAtFacts(store, section, i);
      Store(store.sections[..i] + store.sections[i + 1..])
  }

  lemma RemoveAtFacts(store: Store, section: string, i: nat)
    requires Valid(store)
    requires i == Position(store.sections, section) < |store.sections|
    ensures var r := Store(store.sections[..i] + store.sections[i + 1..]);
      && Valid(r)
      && !HasSection(r, section)
      && (forall s, k, d :: s != section ==> Get(r, s, k, d) == Get(store, s, k, d))
      && (forall s :: s in SectionNames(r) <==> s in SectionNames(store) && s != section)
      && SectionNames(r) == SectionNames(store)[..i] + SectionNames(store)[i + 1..]
  {
    var r := Store(store.sections[..i] + store.sections[i + 1..]);
    assert Valid(r) by {
      forall a, b | 0 <= a < b < |r.sections| ensures r.sections[a].name != r.sections[b].name {
        var a' := if a < i then a else a + 1;
        var b' := if b < i then b else b + 1;
        assert r.sections[a] == store.sections[a'] && r.sections[b] == store.sections[b'];
      }
    }
    PositionRemoveOnly(store.sections, i, section);
    RemoveAtGet(store, section, i);
    RemoveAtNames(store, section, i);
  }

  lemma RemoveAtGet(store: Store, section: string, i: nat)
    requires i == Position(store.sections, section) < |store.sections|
    ensures var r := Store(store.sections[..i] + store.sections[i + 1..]);
      forall s, k, d :: s != section ==> Get(r, s, k, d) == Get(store, s, k, d)
  {
    var r := Store(store.sections[..i] + store.sections[i + 1..]);
    forall s, k, d | s != section
      ensures Get(r, s, k, d) == Get(store, s, k, d)
    {
      PositionRemove(store.sections, i, s);
      var p := Position(store.sections, s);
      if i < p < |store.sections| {
        assert r.sections[p - 1] == store.sections[p];
      }
    }
  }

  lemma RemoveAtNames(store: Store, section: string, i: nat)
    requires Valid(store)
    requires i == Position(store.sections, section) < |store.sections|
    ensures var r := Store(store.sections[..i] + store.sections[i + 1..]);
      && SectionNames(r) == SectionNames(store)[..i] + SectionNames(store)[i + 1..]
      && (forall s :: s in SectionNames(r) <==> s in SectionNames(store) && s != section)
  {
    var r := Store(store.sections[..i] + store.sections[i + 1..]);
    var names := SectionNames(store);
    assert SectionNames(r) == names[..i] + names[i + 1..];
    RemoveDistinct(names, i);
  }

  /** Removing the entry at `i` from a sequence without repetitions removes
      exactly that value. */
  lemma RemoveDistinct(names: seq<string>, i: nat)
    requires i < |names|
    requires forall a, b :: 0 <= a < b < |names| ==> names[a] != names[b]
    ensures forall s :: s in names[..i] + names[i + 1..] <==> s in names && s != names[i]
  {
    var rest := names[..i] + names[i + 1..];
    forall s ensures s in rest <==> s in names && s != names[i] {
      if s in names && s != names[i] {
        var j :| 0 <= j < |names| && names[j] == s;
        if j < i { assert rest[j] == s; } else { assert rest[j - 1] == s; }
      }
      if s in rest {
        var j :| 0 <= j < |rest| && rest[j] == s;
        var j' := if j < i then j else j + 1;
        assert names[j'] == s && j' != i;
      }
    }
  }


  // ---------------------------------------------------------------------------
  // Attribute access

  /** Position of the first section whose entries hold `key`, or `|sections|`. */
  function FirstHolding(sections: seq<Section>, key: string): (i: nat)
    ensures i <= |sections|
    ensures i < |sections| ==> key in sections[i].entries
    ensures forall j :: 0 <= j < i ==> key !in sections[j].entries
  {
    if |sections| == 0 then 0
    else if key in sections[0].entries then 0
    else 1 + FirstHolding(sections[1..], key)
  }

  /** `__getattr__(item)`: the value of `item` in the first section, in
      insertion order, that holds that key; otherwise `AttributeError`. */
  function GetAttr(store: Store, item: string): (r: Result<Value>)
    ensures r.Success? <==> exists i :: 0 <= i < |store.sections| && item in store.sections[i].entries
    ensures r.Success? ==> exists i :: (
      && 0 <= i < |store.sections| && item in store.sections[i].entries
      && r.value == store.sections[i].entries[item]
      && forall j :: 0 <= j < i ==> item !in store.sections[j].entries)
    ensures r.Failure? ==> r.error == "'AppConfig' object has no attribute '" + item + "'"
  {
    var i := FirstHolding(store.sections, item);
    if i < |store.sections| then Success(store.sections[i].entries[item])
    else Failure("'AppConfig' object has no attribute '" + item + "'")
  }

  /** The attributes `__setattr__` lets through to the object itself. */
  const InternalAttributes: set<string> := {"data", "_initialized", "config_file", "main_path"}

  datatype Assignment =
    | Internal                                  // an ordinary instance attribute
    | Raised(store: Store, message: string)     // written to section App, then AttributeError

  /** `__setattr__(key, value)`: internal attributes are set on the object; any
      other assignment is first written into section `App` and then raises. */
  function SetAttr(store: Store, key: string, value: Value): (r: Assignment)
    requires Valid(store)
    ensures r.Internal? <==> key in InternalAttributes
    ensures r.Raised? ==>
      && Valid(r.store)
      && GetAttr(r.store, key).Success?
      && Get(r.store, "App", key, Null) == value
      && r.message == "Cannot set attributes directly. Use 'set' method instead."
  {
    if key in InternalAttributes then Internal
    else
      var s := Set(store, "App", key, value);
      assert key in s.sections[Position(s.sections, "App")].entries;
      Raised(s, "Cannot set attributes directly. Use 'set' method instead.")
  }

  // ---------------------------------------------------------------------------
  // The default document

  /** `_create_default_config`: sections Theme, Window and App. */
  function Default(): (r: Store)
    ensures Valid(r)
    ensures SectionNames(r) == ["Theme", "Window", "App"]
  {
    Store([
      Section("Theme", map[
        "mode" := Str("dark"),
        "color" := Str("ft.Colors.BLUE"),
        "background_image" := Str("images/backgrounds/background1.jpg")]),
      Section("Window", map[
        "width" := Int(1300),
        "height" := Int(800),
        "min_width" := Int(500),
        "min_height" := Int(400),
        "font" := Object(map[
          "windows" := List([Str("Segoe UI"), Str("Microsoft YaHei UI"), Str("Arial")]),
          "macos" := List([Str("SF Pro"), Str("Helvetica Neue"), Str("PingFang SC"), Str("Hiragino Sans GB")]),
          "linux" := List([Str("Ubuntu"), Str("Noto Sans CJK SC"), Str("DejaVu Sans")])])]),
      Section("App", map["title" := Str("PyDracula")])
    ])
  }

  /** Attribute lookup searches keys inside sections, not section names: on
      the default document `config.mode` resolves while `config.Music` raises. */
  lemma DefaultAttributes()
    ensures GetAttr(Default(), "mode") == Success(Str("dark"))
    ensures GetAttr(Default(), "title") == Success(Str("PyDracula"))
    ensures GetAttr(Default(), "Music").Failure?
  {
    DefaultMode();
    DefaultTitle();
    DefaultMusic();
  }

  lemma DefaultMode()
    ensures GetAttr(Default(), "mode") == Success(Str("dark"))
  {
    var d := Default();
    assert "mode" in d.sections[0].entries;
    assert FirstHolding(d.sections, "mode") == 0;
  }

  lemma DefaultTitle()
    ensures GetAttr(Default(), "title") == Success(Str("PyDracula"))
  {
    var d := Default();
    assert "title" !in d.sections[0].entries && "title" !in d.sections[1].entries;
    assert "title" in d.sections[2].entries;
    assert FirstHolding(d.sections, "title") == 2;
  }

  lemma DefaultMusic()
    ensures GetAttr(Default(), "Music").Failure?
  {
    var d := Default();
    assert forall i :: 0 <= i < |d.sections| ==> "Music" !in d.sections[i].entries;
  }

  /** Writing into section `Music` with `set` never makes the attribute
      `Music` resolvable: `config.Music.<field>` keeps raising. */
  lemma {:induction false} MusicAttributeNeverAppears(store: Store, key: string, value: Value)
    requires Valid(store)
    requires GetAttr(store, "Music").Failure?
    requires key != "Music"
    ensures GetAttr(Set(store, "Music", key, value), "Music").Failure?
  {
    var r := Set(store, "Music", key, value);
    forall i | 0 <= i < |r.sections|
      ensures "Music" !in r.sections[i].entries
    {
      if i < |store.sections| {
        assert "Music" !in store.sections[i].entries;
        if r.sections[i].name == "Music" {
          assert Get(r, "Music", "Music", Null) == Get(store, "Music", "Music", Null);
        } else {
          assert r.sections[i] == store.sections[i] by {
            if store.sections[i].name != "Music" {
              SetKeepsOtherSections(store, "Music", key, value, i);
            }
          }
        }
      } else {
        assert Get(r, "Music", "Music", Null) == Get(store, "Music", "Music", Null);
      }
    }
  }

  // ---------------------------------------------------------------------------
  // Helpers about positions

  lemma {:induction false} PositionAppend(sections: seq<Section>, sec: Section, name: string)
    ensures Position(sections, name) < |sections| ==> Position(sections + [sec], name) == Position(sections, name)
    ensures Position(sections, name) == |sections| ==>
      Position(sections + [sec], name) == if name == sec.name then |sections| else |sections| + 1
  {
    if |sections| > 0 {
      assert (sections + [sec])[1..] == sections[1..] + [sec];
      PositionAppend(sections[1..], sec, name);
    }
  }

  lemma {:induction false} PositionSameNames(a: seq<Section>, b: seq<Section>, name: string)
    requires |a| == |b|
    requires forall i :: 0 <= i < |a| ==> a[i].name == b[i].name
    ensures Position(a, name) == Position(b, name)
  {
    if |a| > 0 {
      PositionSameNames(a[1..], b[1..], name);
    }
  }

  lemma {:induction false} PositionRemove(sections: seq<Section>, i: nat, name: string)
    requires i < |sections|
    ensures var r := sections[..i] + sections[i + 1..];
      && (Position(sections, name) < i ==> Position(r, name) == Position(sections, name))
      && (i < Position(sections, name) ==> Position(r, name) == Position(sections, name) - 1)
  {
    var r := sections[..i] + sections[i + 1..];
    if i == 0 {
      assert r == sections[1..];
    } else if sections[0].name != name {
      assert r[0] == sections[0];
      assert r[1..] == sections[1..][..i - 1] + sections[1..][i..];
      PositionRemove(sections[1..], i - 1, name);
    }
  }

  /** Removing the only section of a name leaves none of that name. */
  lemma PositionRemoveOnly(sections: seq<Section>, i: nat, name: string)
    requires i < |sections| && sections[i].name == name
    requires forall j :: 0 <= j < |sections| && j != i ==> sections[j].name != name
    ensures var r := sections[..i] + sections[i + 1..]; Position(r, name) == |r|
  {
    var r := sections[..i] + sections[i + 1..];
    assert forall j :: 0 <= j < |r| ==> r[j] == sections[if j < i then j else j + 1];
  }

  lemma SetKeepsOtherSections(store: Store, section: string, key: string, value: Value, i: nat)
    requires Valid(store)
    requires i < |store.sections| && store.sections[i].name != section
    ensures i < |Set(store, section, key, value).sections|
    ensures Set(store, section, key, value).sections[i] == store.sections[i]
  {
  }
}

=== FILE: sorting.dfy ===
/** Python's `sorted(xs, key=...)`: a stable sort under a total preorder.
    The model uses insertion sort as the reference algorithm; only its
    contract (permutation, order, stability) matters to the callers. */
module Sorting {

  /** `le` behaves like `key(a) <= key(b)` for some key: total and transitive. */
  ghost predicate TotalPreorder<T(!new)>(le: (T, T) -> bool) {
    && (forall a, b :: le(a, b) || le(b, a))
    && (forall a, b, c :: le(a, b) && le(b, c) ==> le(a, c))
  }

  predicate SortedBy<T>(s: seq<T>, le: (T, T) -> bool) {
    forall i, j :: 0 <= i < j < |s| ==> le(s[i], s[j])
  }

  /** Elements that compare equal to `y` (same key), in their order of appearance. */
  function Ties<T>(s: seq<T>, y: T, le: (T, T) -> bool): seq<T> {
    if |s| == 0 then []
    else Ties(s[..|s| - 1], y, le) + (if le(s[|s| - 1], y) && le(y, s[|s| - 1]) then [s[|s| - 1]] else [])
  }

  /** Puts `x` right after the last element that is `le` it (after every tie). */
  function Insert<T>(s: seq<T>, x: T, le: (T, T) -> bool): (r: seq<T>)
    ensures multiset(r) == multiset(s) + multiset{x}
    ensures |r| == |s| + 1
  {
    if |s| == 0 then [x]
    else if le(s[|s| - 1], x) then s + [x]
    else
      assert s == s[..|s| - 1] + [s[|s| - 1]];
      Insert(s[..|s| - 1], x, le) + [s[|s| - 1]]
  }

  /** `sorted(s, key=...)`, with `le` comparing keys. */
  function SortBy<T>(s: seq<T>, le: (T, T) -> bool): (r: seq<T>)
    ensures multiset(r) == multiset(s)
    ensures |r| == |s|
  {
    if |s| == 0 then []
    else
      assert s == s[..|s| - 1] + [s[|s| - 1]];
      Insert(SortBy(s[..|s| - 1], le), s[|s| - 1], le)
  }

  lemma {:induction false} InsertSorted<T(!new)>(s: seq<T>, x: T, le: (T, T) -> bool)
    requires TotalPreorder(le)
    requires SortedBy(s, le)
    ensures SortedBy(Insert(s, x, le), le)
  {
    if |s| > 0 && !le(s[|s| - 1], x) {
      var init := s[..|s| - 1];
      var last := s[|s| - 1];
      InsertSorted(init, x, le);
      var r := Insert(init, x, le);
      forall e | e in r
        ensures le(e, last)
      {
        assert e in multiset(r);
        if e != x {
          assert e in multiset(init);
          var k :| 0 <= k < |init| && init[k] == e;
          assert s[k] == e;
        }
      }
      forall i, j | 0 <= i < j < |r| + 1
        ensures le((r + [last])[i], (r + [last])[j])
      {
        if j == |r| {
          assert (r + [last])[i] == r[i];
          assert r[i] in r;
        }
      }
    }
  }

  lemma {:induction false} SortBySorted<T(!new)>(s: seq<T>, le: (T, T) -> bool)
    requires TotalPreorder(le)
    ensures SortedBy(SortBy(s, le), le)
  {
    if |s| > 0 {
      SortBySorted(s[..|s| - 1], le);
      InsertSorted(SortBy(s[..|s| - 1], le), s[|s| - 1], le);
    }
  }

  lemma TiesAppend<T>(s: seq<T>, x: T, y: T, le: (T, T) -> bool)
    ensures Ties(s + [x], y, le) == Ties(s, y, le) + (if le(x, y) && le(y, x) then [x] else [])
  {
    assert (s + [x])[..|s|] == s;
  }

  /** Inserting keeps every tie class in order, with `x` appended to its own. */
  lemma {:induction false} InsertStable<T(!new)>(s: seq<T>, x: T, y: T, le: (T, T) -> bool)
    requires TotalPreorder(le)
    ensures Ties(Insert(s, x, le), y, le) == Ties(s, y, le) + (if le(x, y) && le(y, x) then [x] else [])
  {
    if |s| == 0 {
      TiesAppend([], x, y, le);
    } else if le(s[|s| - 1], x) {
      TiesAppend(s, x, y, le);
    } else {
      var init := s[..|s| - 1];
      var last := s[|s| - 1];
      assert s == init + [last];
      InsertStable(init, x, y, le);
      TiesAppend(Insert(init, x, le), last, y, le);
      TiesAppend(init, last, y, le);
      // `x` and `last` cannot both tie with `y`: that would make `last le x`.
    }
  }

  /** Stability: within each class of equal keys, the sorted order is the input order. */
  lemma {:induction false} SortByStable<T(!new)>(s: seq<T>, y: T, le: (T, T) -> bool)
    requires TotalPreorder(le)
    ensures Ties(SortBy(s, le), y, le) == Ties(s, y, le)
  {
    if |s| > 0 {
      var init, last := s[..|s| - 1], s[|s| - 1];
      SortByStable(init, y, le);
      InsertStable(SortBy(init, le), last, y, le);
    }
  }

  lemma SortedInit<T>(s: seq<T>, le: (T, T) -> bool)
    requires |s| > 0 && SortedBy(s, le)
    ensures SortedBy(s[..|s| - 1], le)
  {
    var init := s[..|s| - 1];
    forall i, j | 0 <= i < j < |init| ensures le(init[i], init[j]) {
      assert init[i] == s[i] && init[j] == s[j];
    }
  }

  /** A sequence already sorted is its own sort (so sorting twice changes nothing). */
  lemma {:induction false} SortBySortedInput<T(!new)>(s: seq<T>, le: (T, T) -> bool)
    requires SortedBy(s, le)
    ensures SortBy(s, le) == s
  {
    if |s| > 0 {
      var init, last := s[..|s| - 1], s[|s| - 1];
      SortedInit(s, le);
      SortBySortedInput(init, le);
      assert SortBy(s, le) == Insert(init, last, le);
      if |init| > 0 {
        assert init[|init| - 1] == s[|s| - 2];
        assert le(init[|init| - 1], last);
        assert Insert(init, last, le) == init + [last];
      }
      assert init + [last] == s;
    }
  }
}

=== FILE: text.dfy ===
/** The part of Python's `str` API the player engine relies on: `lower`,
    `strip`, `isdigit`, `split`, `rsplit`, `endswith`, `int(...)` and `str(int)`,
    and the code-point ordering `<=` that `sorted` uses on strings. */
module Text {
  import opened Common

  // ---------------------------------------------------------------------------
  // Characters

  predicate IsDigit(c: char) {
    '0' <= c <= '9'
  }

  /** `str.isdigit()` restricted to ASCII digits: non-empty and digits only. */
  predicate IsDigits(s: string) {
    |s| > 0 && forall i :: 0 <= i < |s| ==> IsDigit(s[i])
  }

  /** The characters `str.strip()` removes: exactly those for which Python's
      `str.isspace()` holds. */
  predicate IsSpace(c: char) {
    || c == ' '
    || '\t' <= c <= '\r'
    || '\U{1C}' <= c <= '\U{1F}'
    || c == '\U{85}'
    || c == '\U{A0}'
    || c == '\U{1680}'
    || '\U{2000}' <= c <= '\U{200A}'
    || c == '\U{2028}'
    || c == '\U{2029}'
    || c == '\U{202F}'
    || c == '\U{205F}'
    || c == '\U{3000}'
  }

  /** `str.lower()` on one character, for the ASCII letters. */
  function LowerChar(c: char): char {
    if 'A' <= c <= 'Z' then (c as int + 32) as char else c
  }

  function Lower(s: string): (r: string)
    ensures |r| == |s|
    ensures forall i :: 0 <= i < |s| ==> r[i] == LowerChar(s[i])
  {
    seq(|s|, i requires 0 <= i < |s| => LowerChar(s[i]))
  }

  lemma LowerAppend(a: string, b: string)
    ensures Lower(a + b) == Lower(a) + Lower(b)
  {
  }

  // ---------------------------------------------------------------------------
  // Searching

  /** Index of the first `c` in `s`, or `|s|` when there is none (`str.find`, with `|s|` for -1). */
  function Find(s: string, c: char): (i: nat)
    ensures i <= |s|
    ensures i < |s| ==> s[i] == c
    ensures forall j :: 0 <= j < i ==> s[j] != c
    ensures i == |s| <==> c !in s
  {
    if |s| == 0 then 0
    else if s[0] == c then 0
    else 1 + Find(s[1..], c)
  }

  /** Index of the last `c` in `s`; requires that there is one (`str.rfind`). */
  function RFind(s: string, c: char): (i: nat)
    requires c in s
    ensures i < |s| && s[i] == c
    ensures forall j :: i < j < |s| ==> s[j] != c
  {
    if s[|s| - 1] == c then |s| - 1
    else RFind(s[..|s| - 1], c)
  }

  /** `s.split(c)[0]`: the text before the first `c`, or all of `s`. */
  function BeforeFirst(s: string, c: char): (r: string)
    ensures c !in r
    ensures r <= s
  {
    s[..Find(s, c)]
  }

  /** `s.split(c, 1)[1]` when `c` occurs: the text after the first `c`. */
  function AfterFirst(s: string, c: char): (r: string)
    requires c in s
    ensures s == BeforeFirst(s, c) + [c] + r
  {
    var i := Find(s, c);
    assert s == s[..i] + [c] + s[i + 1..];
    s[i + 1..]
  }

  /** `s.rsplit(c, 1)[0]`: the text before the last `c`, or all of `s`. */
  function BeforeLast(s: string, c: char): (r: string)
    ensures r <= s
    ensures c in s ==> |r| < |s| && s[|r|] == c && c !in s[|r| + 1..]
    ensures c !in s ==> r == s
  {
    if c in s then s[..RFind(s, c)] else s
  }

  predicate EndsWith(s: string, suffix: string) {
    |suffix| <= |s| && s[|s| - |suffix|..] == suffix
  }

  // ---------------------------------------------------------------------------
  // Splitting and joining

  /** `s.split(c)` for a one-character separator. */
  function Split(s: string, c: char): (parts: seq<string>)
    ensures |parts| > 0
    ensures forall k :: 0 <= k < |parts| ==> c !in parts[k]
    ensures JoinWith(parts, c) == s
    decreases |s|
  {
    var i := Find(s, c);
    if i == |s| then [s]
    else
      var rest := Split(s[i + 1..], c);
      assert s == s[..i] + [c] + s[i + 1..];
      [s[..i]] + rest
  }

  /** `c.join(parts)`. */
  function JoinWith(parts: seq<string>, c: char): string {
    if |parts| == 0 then ""
    else if |parts| == 1 then parts[0]
    else parts[0] + [c] + JoinWith(parts[1..], c)
  }

  // ---------------------------------------------------------------------------
  // Stripping

  function StripStart(s: string): (r: string)
    ensures |r| <= |s| && r == s[|s| - |r|..]
    ensures forall i :: 0 <= i < |s| - |r| ==> IsSpace(s[i])
    ensures |r| > 0 ==> !IsSpace(r[0])
  {
    if |s| > 0 && IsSpace(s[0]) then StripStart(s[1..]) else s
  }

  function StripEnd(s: string): (r: string)
    ensures |r| <= |s| && r == s[..|r|]
    ensures forall i :: |r| <= i < |s| ==> IsSpace(s[i])
    ensures |r| > 0 ==> !IsSpace(r[|r| - 1])
  {
    if |s| > 0 && IsSpace(s[|s| - 1]) then StripEnd(s[..|s| - 1]) else s
  }

  /** `str.strip()`: drops leading and trailing whitespace and nothing else. */
  function Strip(s: string): (r: string)
    ensures |r| <= |s|
    ensures |r| > 0 ==> !IsSpace(r[0]) && !IsSpace(r[|r| - 1])
    ensures exists a, b :: StripEnds(s, r, a, b)
  {
    var t := StripStart(s);
    var r := StripEnd(t);
    assert |r| > 0 ==> r[0] == t[0];
    SliceOfSlice(s, t, r, |s| - |t|);
    r
  }

  /** `r` is `s[a..b]` and everything outside that slice is whitespace. */
  predicate StripEnds(s: string, r: string, a: int, b: int) {
    && 0 <= a <= b <= |s| && r == s[a..b]
    && (forall j :: 0 <= j < a ==> IsSpace(s[j]))
    && (forall j :: b <= j < |s| ==> IsSpace(s[j]))
  }

  /** The two cuts of `Strip` compose into one slice of the input. */
  lemma SliceOfSlice(s: string, t: string, r: string, a: nat)
    requires a <= |s| && t == s[a..]
    requires |r| <= |t| && r == t[..|r|]
    requires forall j :: 0 <= j < a ==> IsSpace(s[j])
    requires forall j :: |r| <= j < |t| ==> IsSpace(t[j])
    ensures StripEnds(s, r, a, a + |r|)
  {
    assert r == s[a..a + |r|];
    forall j | a + |r| <= j < |s| ensures IsSpace(s[j]) {
      assert s[j] == t[j - a];
    }
  }

  /** A string with no whitespace at either end is its own strip. */
  lemma StripUnchanged(s: string)
    requires |s| > 0 ==> !IsSpace(s[0]) && !IsSpace(s[|s| - 1])
    ensures Strip(s) == s
  {
  }

  // ---------------------------------------------------------------------------
  // Integers and their decimal text

  function DigitChar(d: nat): (c: char)
    requires d < 10
    ensures IsDigit(c) && c as int - '0' as int == d
  {
    ('0' as int + d) as char
  }

  /** The value of a run of decimal digits (`int(s)` on such a run). */
  function DigitsValue(s: string): nat
    requires forall i :: 0 <= i < |s| ==> IsDigit(s[i])
  {
    if |s| == 0 then 0
    else
      assert IsDigit(s[|s| - 1]);
      10 * DigitsValue(s[..|s| - 1]) + (s[|s| - 1] as int - '0' as int)
  }

  /** A leading zero does not change the value of a digit run. */
  lemma {:induction false} DigitsValueLeadingZero(s: string)
    requires forall i :: 0 <= i < |s| ==> IsDigit(s[i])
    ensures DigitsValue("0" + s) == DigitsValue(s)
  {
    var t := "0" + s;
    if |s| > 0 {
      assert t[..|t| - 1] == "0" + s[..|s| - 1];
      DigitsValueLeadingZero(s[..|s| - 1]);
    } else {
      assert t[..0] == "";
    }
  }

  /** `str(n)` for a natural number. */
  function NatToString(n: nat): (s: string)
    ensures IsDigits(s)
    ensures DigitsValue(s) == n
    ensures n < 10 <==> |s| == 1
    ensures n > 0 ==> s[0] != '0'
  {
    if n < 10 then [DigitChar(n)]
    else
      var prefix := NatToString(n / 10);
      var s := prefix + [DigitChar(n % 10)];
      assert s[..|s| - 1] == prefix;
      s
  }

  /** `str(i)` for any integer: a minus sign before the digits of a negative value. */
  function IntToString(i: int): (s: string)
    ensures |s| > 0
  {
    if i < 0 then "-" + NatToString(-i) else NatToString(i)
  }

  /** `int(s)` on text: surrounding whitespace, an optional sign, then ASCII
      digits; `None` where Python raises `ValueError`. */
  function ParseInt(s: string): (r: Option<int>)
    ensures IsDigits(s) ==> r == Some(DigitsValue(s))
    ensures |s| > 1 && s[0] == '-' && IsDigits(s[1..]) ==> r == Some(-(DigitsValue(s[1..]) as int))
    ensures Blank(s) ==> r.None?
  {
    var t := Strip(s);
    BlankStrip(s);
    SignedDigitsStrip(s);
    ParseStripped(t)
  }

  /** `int` on text already stripped: an optional sign, then ASCII digits. */
  function ParseStripped(t: string): (r: Option<int>)
    ensures |t| == 0 ==> r.None?
    ensures IsDigits(t) ==> r == Some(DigitsValue(t))
    ensures |t| > 1 && t[0] == '-' && IsDigits(t[1..]) ==> r == Some(-(DigitsValue(t[1..]) as int))
  {
    if |t| > 0 && (t[0] == '-' || t[0] == '+') then
      if IsDigits(t[1..]) then
        var v: int := DigitsValue(t[1..]);
        Some(if t[0] == '-' then -v else v)
      else None
    else if IsDigits(t) then Some(DigitsValue(t))
    else None
  }

  /** `s` is whitespace only (or empty). */
  predicate Blank(s: string) {
    forall i :: 0 <= i < |s| ==> IsSpace(s[i])
  }

  /** Whitespace strips to nothing. */
  lemma BlankStrip(s: string)
    ensures Blank(s) ==> Strip(s) == ""
  {
  }

  /** Digits, with or without a leading `-`, have nothing to strip. */
  lemma SignedDigitsStrip(s: string)
    ensures IsDigits(s) ==> Strip(s) == s
    ensures |s| > 1 && s[0] == '-' && IsDigits(s[1..]) ==> Strip(s) == s
  {
    if IsDigits(s) || (|s| > 1 && s[0] == '-' && IsDigits(s[1..])) {
      assert IsDigit(s[|s| - 1]) by {
        if !IsDigits(s) { assert s[|s| - 1] == s[1..][|s| - 2]; }
      }
      assert !IsSpace(s[0]) && !IsSpace(s[|s| - 1]);
      StripUnchanged(s);
    }
  }

  /** `int(str(i)) == i`: the decimal text of an integer reads back as that integer. */
  lemma {:induction false} ParseIntRoundTrip(i: int)
    ensures ParseInt(IntToString(i)) == Some(i)
  {
    var s := IntToString(i);
    var digits := NatToString(if i < 0 then -i else i);
    assert !IsSpace(digits[0]) && !IsSpace(digits[|digits| - 1]);
    StripUnchanged(s);
    if i < 0 {
      assert s[1..] == digits;
    }
  }

  // ---------------------------------------------------------------------------
  // Ordering: Python compares strings code point by code point

  /** `a <= b` on Python strings. */
  predicate LexLe(a: string, b: string) {
    |a| == 0 || (|b| > 0 && (a[0] < b[0] || (a[0] == b[0] && LexLe(a[1..], b[1..]))))
  }

  lemma {:induction false} LexLeTotal(a: string, b: string)
    ensures LexLe(a, b) || LexLe(b, a)
  {
    if |a| > 0 && |b| > 0 && a[0] == b[0] {
      LexLeTotal(a[1..], b[1..]);
    }
  }

  lemma {:induction false} LexLeTransitive(a: string, b: string, c: string)
    requires LexLe(a, b) && LexLe(b, c)
    ensures LexLe(a, c)
  {
    if |a| > 0 && a[0] == b[0] && b[0] == c[0] {
      LexLeTransitive(a[1..], b[1..], c[1..]);
    }
  }
}
